=== FILE: README.md ===
# A Dafny model of the crawler-with-api-and-mcp core

This project models the core of `crawler-with-api-and-mcp`, a small NestJS
service. The service crawls web pages breadth-first, level by level, up to a
depth limit, and stores page summaries in a table keyed by URL. The model is
functional. Every operation is a pure function over immutable datatypes, and
the asynchronous parts are transition systems. Properties are proved over
every sequence of steps.

| file | models |
|---|---|
| `wrappers.dfy` | `Option`, used for JavaScript's `null` and `undefined` |
| `text.dfy` | the string helpers the code relies on: `\s`, `trim()`, `replace(/\s+/g, ' ')`, `slice(0, n)`, `startsWith`, `includes` and the ASCII case-insensitive prefix test |
| `sequences.dfy` | `[...new Set(xs)]`: de-duplication that keeps first occurrences |
| `url_normalizer.dfy` | `normalizeUrl` (`src/crawler/crawler.util.ts`) |
| `task_queue.dfy` | `TaskQueueService` (`src/crawler/crawler.task-queue.service.ts`) |
| `crawler.dfy` | `CrawlerService` (`src/crawler/crawler.service.ts`) on top of the task queue |
| `crawler_controller.dfy` | the options and the two handler closures of `CrawlerController` (`src/crawler/crawler.controller.ts`) |
| `webpage_service.dfy` | `WebPageService` (`src/webpage/webpage.service.ts`) over a finite map from URL to row |
| `webpage_controller.dfy` | `WebPageController` (`src/webpage/webpage.controller.ts`) |

Some parts of the system are parameters of the model:

- The WHATWG URL parser and serializer are `UrlNormalizer.UrlParser`, left
  uninterpreted.
- `loadHtml` together with the cheerio queries is `Crawler.Env.load`. It yields
  an optional `Document` holding the title text, the meta description, the body
  text, the root HTML and the anchor hrefs.
- The database-generated id is a `freshId` argument.

Each crawl task is an `async` closure that awaits twice: once on `loadHtml` and
once on the handler. The queue's `run()` then awaits the task's promise.
The model cuts a task at these three points into the atomic steps that
JavaScript's run-to-completion semantics gives it:

- the claim, which runs synchronously when the queue starts the task;
- the load;
- the expansion after the handler;
- the settling of the task's promise.

The steps of all tasks can interleave in any order (`Crawler.Event`,
`Crawler.Execute`).

## Model

| member | source | states |
|---|---|---|
| `UrlNormalizer.ParseInput` | src/crawler/crawler.util.ts:7-17 | A `//` input becomes `https:` plus the input. A root-relative input is rejected without a non-empty base; with one, it is joined to the base minus its last character. Input with an explicit http(s) scheme goes through as it is; anything else gets `https://` in front. The string handed to the parser always ends with the input. |
| `UrlNormalizer.StripWww` | src/crawler/crawler.util.ts:21-23 | A hostname starting with `www.` loses exactly that prefix. Any other hostname is unchanged. |
| `UrlNormalizer.Normalize` | src/crawler/crawler.util.ts:1-29 | Absent or whitespace-only input gives null, and so does a parser failure. The result is present exactly when the parsed protocol starts with `http`. It is then the serialization of the parsed record with one leading `www.` removed from the hostname. `UrlNormalizer.Parsed` is the `new URL(...)` call on the prepared input. The rows below characterise it branch by branch. |
| `UrlNormalizer.BaseOnlyForRootRelative` | src/crawler/crawler.util.ts:7-17 | Outside the root-relative branch, the base has no influence on the result. |
| `UrlNormalizer.ProtocolRelativeIsHttps` | src/crawler/crawler.util.ts:7-8 | A `//host/path` input is parsed as `https://host/path`, whatever the base. |
| `UrlNormalizer.RootRelativeNeedsBase` | src/crawler/crawler.util.ts:9-10 | A root-relative input with a missing or empty base gives null, whatever the parser would say. |
| `UrlNormalizer.RootRelativeJoin` | src/crawler/crawler.util.ts:11 | With a base, a root-relative input is parsed as the base without its last character, followed by the input. |
| `UrlNormalizer.NaiveJoinDropsAnyLastCharacter` | src/crawler/crawler.util.ts:11 | A worked example of `RootRelativeJoin`. The join drops the last character even when it is not `/`: `/a` against `https://e.com/docs` is parsed as `https://e.com/doc/a`. |
| `UrlNormalizer.SchemeDefaulting` | src/crawler/crawler.util.ts:12-16 | In the third branch, input with an http(s) scheme in any letter case is parsed unchanged, and any other input is parsed with `https://` prepended. |
| `UrlNormalizer.WwwSubstringSkipsBase` | src/crawler/crawler.util.ts:9 | A single-slash path that contains `www` anywhere skips the base and is parsed with `https://` prepended. |
| `UrlNormalizer.ProtocolPrefixIsPermissive` | src/crawler/crawler.util.ts:19 | The protocol test is a prefix test: a parsed `httpx:` protocol is accepted. |
| `UrlNormalizer.StripWwwOnce` | src/crawler/crawler.util.ts:21-22 | Worked examples of `StripWww`'s contract. Only one leading `www.` goes (`www.www.x` keeps one), and `wwwx.org` is untouched. |
| `Text.BlankIffNoVisible` | src/crawler/crawler.util.ts:2 | `!url.trim()` holds exactly when the string has no non-whitespace character. |
| `Text.Trim` | src/crawler/crawler.controller.ts:29 | `trim()` returns the slice between the leading and the trailing whitespace. The result neither starts nor ends with whitespace, and it is empty exactly for a blank input. |
| `Text.TrimKeepsVisible` | src/crawler/crawler.controller.ts:29 | Trimming keeps every non-whitespace character, in order. |
| `Text.TrimIdempotent` | src/crawler/crawler.controller.ts:29 | Trimming a trimmed string changes nothing. |
| `Text.CollapseWhitespace` | src/crawler/crawler.controller.ts:33 | After `replace(/\s+/g, ' ')`, every whitespace character is a plain space and no two are adjacent. The non-whitespace characters are those of the input, in order. The result is no longer than the input and starts with whitespace exactly when the input does. |
| `Text.Words` | src/crawler/crawler.controller.ts:33 | The words of a string are non-empty, contain no whitespace, and the first starts with the string's first character when that is visible. |
| `Text.CollapseKeepsWords` | src/crawler/crawler.controller.ts:33 | `replace(/\s+/g, ' ')` keeps the sequence of words (maximal runs of non-whitespace) unchanged. Only the whitespace between, before and after them is replaced. |
| `Text.CollapseKeepsEnd` | src/crawler/crawler.controller.ts:33 | The collapsed text ends with whitespace exactly when the input does. Together with the clauses above, the result is a single space wherever the input had a run of whitespace. |
| `Text.TrimKeepsWords` | src/crawler/crawler.controller.ts:29-33 | `trim()` keeps the sequence of words. |
| `Text.Take` | src/crawler/crawler.controller.ts:33 | `slice(0, n)` is the prefix of the input whose length is `min(n, length)`. |
| `Sequences.Dedup` | src/crawler/crawler.service.ts:77 | `[...new Set(xs)]` has no duplicates and holds exactly the elements of `xs`. They come in the order of their first occurrences in `xs`. |
| `TaskQueue.TryStart` | src/crawler/crawler.task-queue.service.ts:23-31 | A task starts exactly when fewer than 10 are running and one is pending. The started task is the head of the FIFO, and the running count grows by the number started. |
| `TaskQueue.Enqueue` | src/crawler/crawler.task-queue.service.ts:18-21 | The task goes to the tail, the queue is not idle afterwards, and no waiter is touched. Validity is kept. With a free slot, the task that starts is the old head, or the new task when nothing was pending. |
| `TaskQueue.Finish` | src/crawler/crawler.task-queue.service.ts:32-40 | One task is counted out and the head of the FIFO starts if there is one. Every waiter is released, and the list cleared, exactly when the queue is then idle; otherwise none is released. Validity is kept. |
| `TaskQueue.OnIdle` | src/crawler/crawler.task-queue.service.ts:46-51 | The call resolves at once exactly when the queue is idle. Otherwise exactly one waiter is registered and nothing else changes. |
| `TaskQueue.StepIsFifo` | src/crawler/crawler.task-queue.service.ts:18-31 | `TaskQueue.Step` applies one event to the queue: a push, a task's promise settling, or an `onIdle` call. For every event, the old pending tasks plus those pushed equal the tasks started plus those still pending. |
| `TaskQueue.StepAccountsForWaiters` | src/crawler/crawler.task-queue.service.ts:35-51 | For every event, the waiters before plus those registered are, as a multiset, those resolved, released or still waiting. |
| `TaskQueue.StepKeepsValid` | src/crawler/crawler.task-queue.service.ts:18-51 | No event breaks the bound of 10, work conservation (a pending task means 10 are running) or the rule that no waiter sits on an idle queue. |
| `TaskQueue.Execute` | src/crawler/crawler.task-queue.service.ts:18-51 | Over any sequence of events, the queue stays valid and tasks start in FIFO push order. No waiter is lost or released twice. |
| `TaskQueue.ReleaseOnlyWhenIdle` | src/crawler/crawler.task-queue.service.ts:35-40 | Waiters are released only onto an idle queue, and only if some were registered. |
| `Crawler.Claim` | src/crawler/crawler.service.ts:51-59 | A URL whose canonical form is null, empty (falsy) or already visited finishes the task on the spot, with the visited set unchanged. Otherwise the canonical URL is added to the visited set before the load, and the task goes on to load it. The crawler invariant is kept. |
| `Crawler.Launch` | src/crawler/crawler.service.ts:50-59 | The task the queue hands over is the task whose claim runs, at once. With no task started, nothing changes. The queue and the handler log are untouched. The slot bookkeeping is kept, and so is the depth bound when the started task lies above the cutoff. |
| `Crawler.PushAll` | src/crawler/crawler.service.ts:48-50 | `startUrls.map(enqueue)` keeps the crawler invariant and leaves the handler log and `maxDepth` alone. It keeps the depth bound when the level lies above the cutoff. |
| `Crawler.Push` | src/crawler/crawler.service.ts:48-50 | One enqueue keeps the crawler invariant and leaves the handler log alone. |
| `Crawler.Level` | src/crawler/crawler.service.ts:43-50 | At or beyond a non-zero `maxDepth`, nothing is enqueued. The invariant and the depth bound are kept. |
| `Crawler.JoinsTail` | src/crawler/crawler.service.ts:50 | One enqueue puts the task at the tail of the FIFO. A task that starts leaves from the head and takes a slot. |
| `Crawler.PushAllIsFifo` | src/crawler/crawler.service.ts:48-50 | `startUrls.map(enqueue)` queues one task per URL, in order, at the given depth, behind what was already pending. The tasks that started came off the head, one slot each. |
| `Crawler.LevelIsFifo` | src/crawler/crawler.service.ts:43-50 | Below a non-zero `maxDepth`, or with no limit, a level queues every URL's task in order behind the pending ones. |
| `Crawler.ResolvedLinks` | src/crawler/crawler.service.ts:71-73 | `Crawler.Resolved` maps each href through `normalizeUrl(href, pageUrl)` and filters. The resolved links never name the page itself. They hold every href that normalises against the page to another URL, and nothing that is not such a normalisation. |
| `Crawler.ChildrenAreFirstOccurrences` | src/crawler/crawler.service.ts:71-77 | The child URLs (`Crawler.Children`) are the resolved links, each exactly once, in the order of first occurrence, and never the page itself. |
| `Crawler.Load` | src/crawler/crawler.service.ts:60-65 | A failed load ends the task with no handler call. A successful one calls the handler once, with the canonical URL and the loaded document. The task then holds that document, waiting to expand it. The visited set and the queue are untouched. |
| `Crawler.Expand` | src/crawler/crawler.service.ts:66-81 | When the next level is cut off, the task only finishes. Nothing handled changes, and the invariant and the depth bound are kept. |
| `Crawler.ExpandIsFifo` | src/crawler/crawler.service.ts:66-81 | Below the cutoff, the task finishes and each child URL gets one task at the next depth, in order, behind what was pending. |
| `Crawler.Settle` | src/crawler/crawler.task-queue.service.ts:32-40 | When a finished task settles, the invariant and the depth bound are kept. If the queue is left idle, every stored waiter is woken and the list is cleared. Otherwise no waiter is woken and the list is unchanged. Waiters are woken only onto a drained crawler. |
| `Crawler.SettleClaimsHead` | src/crawler/crawler.task-queue.service.ts:30-34 | The settle drops the finished slot. With a task pending, the queue starts the head of the FIFO and its claim runs at once against the remaining slots. With nothing pending, only the finished slot goes. |
| `Crawler.Run` | src/crawler/crawler.service.ts:24-32 | `maxDepth` becomes the option, or 1 when it is unset. The visited set is kept, never cleared, and the invariant holds afterwards. |
| `Crawler.RunIsFifo` | src/crawler/crawler.service.ts:24-28 | `crawl(startUrls, 0)` queues one depth-0 task per seed, in order, behind what was pending, unless a negative `maxDepth` cuts off depth 0. In that case only `maxDepth` changes. |
| `Crawler.AwaitIdle` | src/crawler/crawler.service.ts:34-36 | On an idle queue, `onIdle` wakes its caller at once and changes nothing, and the crawler is then drained. Otherwise the caller is appended to the stored waiters and nobody is woken. |
| `Crawler.Step` | src/crawler/crawler.service.ts:24-84 | Any event keeps the crawler invariant. The handler log and the visited set only grow. Only `run` changes `maxDepth`, and a woken waiter always finds the crawler drained. |
| `Crawler.ExpandPageQueuesChildren` | src/crawler/crawler.service.ts:66-81 | Below the cutoff, a settled handler finishes its task and queues one task per child link of the task's page (`Children` of its hrefs) at depth + 1, in order, behind what was pending. On a reachable state that page is the one loaded from the task's URL. |
| `Crawler.LoadPageStep` | src/crawler/crawler.service.ts:60-66 | A load event on a task whose page loads calls the handler once, with the canonical URL and the loaded page. The task is left holding that page, so its next event is the expansion of that page's links. The queue is untouched. |
| `Crawler.Execute` | src/crawler/crawler.service.ts:14-84 | Over any interleaving of events, the invariant is kept and the handler log and the visited set only grow. Within one run, `maxDepth` is unchanged and the depth bound holds throughout. |
| `Crawler.StepAccountsForWaiters` | src/crawler/crawler.task-queue.service.ts:35-51 | For every crawler event, the waiters before plus the one an `onIdle` call registers are, as a multiset, those woken plus those still stored. |
| `Crawler.ExecuteAccountsForWaiters` | src/crawler/crawler.task-queue.service.ts:35-51 | Over any interleaving, every `onIdle` caller is either woken or still stored, and nobody else is woken. |
| `Crawler.FreshStateIsValid` | src/crawler/crawler.service.ts:14-16 | An instance before a run satisfies the invariant, whatever it visited before. |
| `Crawler.AtMostOncePerUrl` | src/crawler/crawler.service.ts:53-65 | Across every run and interleaving, the handler is called at most once per canonical URL. It always receives the task URL's canonical form and the page loaded from it, and never a URL visited before. |
| `Crawler.DepthCutoff` | src/crawler/crawler.service.ts:25-66 | Within one run, no handler call or pending task lies at or beyond a non-zero `maxDepth`, which defaults to 1. |
| `Crawler.SingleSeedRun` | src/crawler/crawler.service.ts:24-66 | A run with `maxDepth` 1 from one URL handles at most one page: that URL's canonical form, at depth 0. |
| `Crawler.TrackExecute` | src/crawler/crawler.service.ts:59-65 | Once a loadable page is claimed, every later state has either handled it or still has a task waiting to load it. A claimed page is never dropped before the handler sees it. |
| `Crawler.SeedClaimed` | src/crawler/crawler.service.ts:24-59 | `run([url], { maxDepth: 1 })` on an idle instance starts the seed's task at once and claims its canonical URL when that URL is non-empty and new. |
| `Crawler.SingleSeedHandled` | src/crawler/crawler.service.ts:24-66 | Once such a run has drained, with a new seed whose page loads, the handler was called exactly once: with the seed's canonical URL and its page, at depth 0. |
| `Crawler.NeverRevisited` | src/crawler/crawler.service.ts:14-28 | A URL visited while no task is in flight is never handled again by later runs on the same instance. |
| `CrawlerController.DepthCrawlOptions` | src/crawler/crawler.controller.ts:48-49 | The requested depth is passed through unchanged. |
| `CrawlerController.SummaryText` | src/crawler/crawler.controller.ts:33 | The summary text is the first `min(1000, n)` characters of the collapsed, trimmed body of length `n`. When the body is at most 1000 characters, it has the body's words exactly. It is at most 1000 characters. It is single-spaced with plain spaces and has no leading space. It is empty exactly when the body is blank. Its visible characters are a prefix of the body's, all of them when the body fits. |
| `CrawlerController.Description` | src/crawler/crawler.controller.ts:30-31 | With meta content present, the description is `trim()` of it. It is `''` exactly when the content is absent or blank, and otherwise has the content's visible characters. |
| `CrawlerController.Summarize` | src/crawler/crawler.controller.ts:27-35 | One handler call records the canonical URL, `trim()` of the title, the description of the meta content, the category `webpage` and the summary text of the body. It records the root HTML, or `''` when there is none. |
| `CrawlerController.LastCallWins` | src/crawler/crawler.controller.ts:24-35 | `CrawlerController.Filled` applies the one-page handler closure to each call in turn. The shared result is the summary from the last handler call, and stays empty when the handler was never called. |
| `CrawlerController.CollectedIsCallOrder` | src/crawler/crawler.controller.ts:47-53 | `CrawlerController.Collected` applies the URL-list closure to each call in turn. The URL list holds one entry per handler call, the URL that call received, in call order. |
| `CrawlerController.CrawlOneWebPage` | src/crawler/crawler.controller.ts:22-40 | The one-page endpoint's result is empty, or it is the summary of the URL's canonical form and the page loaded from it. It is empty when that URL was visited before. Once the crawler has drained, a new URL whose page loads has exactly that summary as its result. |
| `CrawlerController.DepthCrawlWebPageUrls` | src/crawler/crawler.controller.ts:45-57 | The URL list has no duplicates. Each URL is canonical, was not visited before, and comes from a level above a non-zero depth. |
| `CrawlerController.AnswersOnlyWhenDrained` | src/crawler/crawler.controller.ts:37-56 | Whenever an endpoint's `onIdle` waiter is woken, nothing is pending, running or in flight. |
| `WebPageService.SaveOrUpdate` | src/webpage/webpage.service.ts:18-46 | The row for the URL is written, and nothing else changes. The four content fields are overwritten. On update, the id, name and url are kept, and `wholePage` is taken only when it is truthy. On create, a row gets the fresh id, a null name, the URL and the given `wholePage`. |
| `WebPageService.CheckExists` | src/webpage/webpage.service.ts:48-57 | True exactly when a row for the URL exists. |
| `WebPageService.Get` | src/webpage/webpage.service.ts:59-67 | Returns the row for the URL, or null when there is none, and that row carries the URL. |
| `WebPageService.GetAfterSave` | src/webpage/webpage.service.ts:18-41 | After an upsert, the page is readable under its URL and exists. Every other URL reads and checks as before. |
| `WebPageService.SaveTwiceIsSaveOnce` | src/webpage/webpage.service.ts:21-29 | Upserting the same page twice leaves the table and the returned row as one upsert did. |
| `WebPageService.EmptyWholePageRetained` | src/webpage/webpage.service.ts:27 | An update whose `wholePage` is absent or empty keeps the stored one. |
| `WebPageController.SaveWebPage` | src/webpage/webpage.controller.ts:31-47 | The message is `Page updated` exactly when the URL had a row before, and `Page saved` otherwise. The returned page is the stored row and other URLs are unchanged. An absent `wholePage` keeps the stored one on update and becomes `''` on create. |
| `WebPageController.SaveThenUpdate` | src/webpage/webpage.controller.ts:34-44 | Saving a new page twice answers `Page saved` and then `Page updated`, with the same row and table. |
| `WebPageController.CheckWebPageExists` | src/webpage/webpage.controller.ts:61-68 | `{ exists }` is true exactly when a row for the URL exists. |
| `WebPageController.GetWebPage` | src/webpage/webpage.controller.ts:79-87 | Returns the service's row, or null when there is none. |
| `WebPageController.SavedPageIsVisible` | src/webpage/webpage.controller.ts:61-87 | A saved page is then reported as existing and returned by the read endpoint. |

## Left out

- `mcp/index.ts` is a separate process. It only forwards calls to the HTTP API over the network.
- Crawler.SingleSeedHandled and CrawlerController.CrawlOneWebPage take "the run has drained" as a hypothesis. That every run eventually drains, which needs every `loadHtml` and handler promise to settle, is not proved.
- `loadHtml` is not modelled: it fetches over the network, runs cheerio and appends to an error log. Only its optional result is modelled (`Env.load`).
- The cheerio selector queries are not modelled either (`$('title').text()`, the meta description, `$('body').text()`, `$('html').html()`, `$.extract`). The model takes their results as fields of `Document`.
- The WHATWG URL parser and serializer are uninterpreted, because they are a standard library. Nothing is claimed about which schemes they accept. The `hostname` setter is a plain record update.
- Real asynchrony is modelled only as interleavings. A task is cut at its `await` points, and the steps of different tasks interleave in any order. Microtask ordering beyond that is not modelled.
- A task whose promise rejects is not modelled. The queue's decrement would then never run, so the task would hold its slot forever. Every task is assumed to complete normally.
- `Crawler.DepthCutoff` covers one run only, because `this.maxDepth` is shared by the whole instance. A second `run` on the same instance, started while the first one's tasks are still in flight, changes the cutoff for those tasks as well. The at-most-once property still holds across runs.
- Overlapping runs also share `this.handler`: the latest `run` replaces the handler of tasks still in flight. The model keeps one handler log per instance, and the endpoint lemmas are stated for a single run from an instance with no task in flight.
- `visitedUrls` is created once, by the field initialiser, and never cleared, so later runs skip pages that earlier runs visited. The model follows the code. Per-run freshness of the visited set is not the code's behaviour.
- `CrawlerController.CrawlOneWebPage`: the empty `CrawledWebPageDto` the endpoint starts from is `None`. Its undefined fields are not modelled.
- Nest wiring, dependency injection, DTO validation, Swagger decorators and TypeORM configuration are not modelled.
- The `createdAt` and `updatedAt` timestamps are not modelled.
- The database-generated id is the parameter `freshId`.
- Repository errors are not modelled. The table is a map, so lookups and saves cannot fail. In the source, only the awaited lookups in `saveOrUpdateWebPage` and `checkWebPageExists` are logged and rethrown. The `save` and `findOneBy` promises that are returned without `await` reject past the `catch`.
- Logging (`Logger`, `console.error`) is not modelled.
- Unicode detail is only partly modelled. `\s` and `trim()` use the exact ECMAScript whitespace set on `char`. `slice` counts `char`s, not UTF-16 code units, and there is no case folding beyond ASCII letters.

=== FILE: crawler.dfy ===
/** `CrawlerService` (src/crawler/crawler.service.ts) as a transition
    system over the task queue. Each crawl task is split at its `await`
    points into four atomic steps:
    - the claim, run synchronously when the queue starts the task
      (normalise, check and extend the visited set);
    - the load, when `loadHtml` settles (handler call or nothing);
    - the expansion, after the handler's promise (child links);
    - the settling, when the task's promise resolves and the queue
      decrements (the tail of the queue's `run()`).
    Fetching is the parameter `Env.load`; the handler appends to `handled`. */
module Crawler {
  import opened Wrappers
  import opened Sequences
  import opened UrlNormalizer
  import TQ = TaskQueue

  /** What the HTML capability yields for a loaded page: title text, meta
      description content, body text, root HTML and anchor hrefs in
      document order. */
  datatype Document = Document(
    title: string,
    metaDescription: Option<string>,
    bodyText: string,
    rootHtml: Option<string>,
    hrefs: seq<string>)

  /** The URL parser and `loadHtml` (`None` when the fetch or the parse
      fails). */
  datatype Env = Env(parser: UrlParser, load: string -> Option<Document>)

  /** The closure `crawl` enqueues for each URL: a raw URL and the level it belongs to. */
  datatype CrawlTask = CrawlTask(url: string, depth: nat)

  /** Where a started task is: waiting for its page (after the claim),
      waiting to expand its links (after the handler), or finished and
      waiting for the queue to count it out. */
  datatype Slot =
    | Loading(raw: string, page: string, depth: nat)
    | Expanding(raw: string, page: string, doc: Document, depth: nat)
    | Done

  /** One handler call: the canonical URL and document it received. The
      raw URL and depth of the task record where the call came from. */
  datatype Visit = Visit(raw: string, url: string, doc: Document, depth: nat)

  /** The service's fields (`visitedUrls`, `maxDepth`), the shared task
      queue, the started tasks (one slot per running task) and the log of
      handler calls. */
  datatype CrawlState = CrawlState(
    queue: TQ.Queue<CrawlTask>,
    slots: seq<Slot>,
    visited: set<string>,
    maxDepth: int,
    handled: seq<Visit>)

  /** A service instance before any run, possibly after earlier runs that
      left `visited` behind. */
  function FreshState(visited: set<string>): CrawlState {
    CrawlState(TQ.Fresh(), [], visited, 1, [])
  }

  /** `normalizeUrl(url, null)`, the claim's normalisation. */
  function Canonical(env: Env, raw: string): Option<string> {
    Normalize(env.parser, Some(raw), None)
  }

  /** `this.maxDepth && depth >= this.maxDepth`: zero means no limit. */
  predicate Cutoff(maxDepth: int, depth: int) {
    maxDepth != 0 && depth >= maxDepth
  }

  /** The URLs passed to the handler, in call order. */
  function HandledUrls(handled: seq<Visit>): (r: seq<string>)
    ensures |r| == |handled|
    ensures forall k :: 0 <= k < |handled| ==> r[k] == handled[k].url
  {
    seq(|handled|, k requires 0 <= k < |handled| => handled[k].url)
  }

  /** The bookkeeping every reachable state keeps. Every claimed URL is
      canonical and visited; every handler call got the loaded page of its
      URL, and a task about to expand holds the page loaded from its URL;
      no URL is in flight twice or in flight and already handled; no
      URL was handled twice. */
  predicate SlotsOk(env: Env, s: CrawlState) {
    Bookkept(env, s.slots, s.visited, s.handled)
  }

  /** `SlotsOk` on the three fields it reads. */
  predicate Bookkept(env: Env, slots: seq<Slot>, visited: set<string>, handled: seq<Visit>) {
    && (forall i :: 0 <= i < |slots| && !slots[i].Done? ==>
          Canonical(env, slots[i].raw) == Some(slots[i].page))
    && (forall i :: 0 <= i < |slots| && slots[i].Loading? ==> slots[i].page in visited)
    && (forall i :: 0 <= i < |slots| && slots[i].Expanding? ==> env.load(slots[i].page) == Some(slots[i].doc))
    && (forall k :: 0 <= k < |handled| ==>
          && handled[k].url in visited
          && Canonical(env, handled[k].raw) == Some(handled[k].url)
          && env.load(handled[k].url) == Some(handled[k].doc))
    && (forall i, j :: 0 <= i < j < |slots| && slots[i].Loading? && slots[j].Loading? ==>
          slots[i].page != slots[j].page)
    && (forall i, k :: 0 <= i < |slots| && slots[i].Loading? && 0 <= k < |handled| ==>
          slots[i].page != handled[k].url)
    && (forall k, l :: 0 <= k < l < |handled| ==> handled[k].url != handled[l].url)
  }

  /** The invariant of the whole crawler: the queue's own invariant, one
      slot per running task, and the slot bookkeeping. */
  predicate Inv(env: Env, s: CrawlState) {
    TQ.Valid(s.queue) && |s.slots| == s.queue.running && SlotsOk(env, s)
  }

  /** Every pending task, started task and handler call lies above the
      depth cutoff of the current `maxDepth`. */
  predicate DepthOk(s: CrawlState) {
    PendingAbove(s.maxDepth, s.queue.pending) && WorkAbove(s.maxDepth, s.slots, s.handled)
  }

  predicate PendingAbove(maxDepth: int, pending: seq<CrawlTask>) {
    forall t :: t in pending ==> !Cutoff(maxDepth, t.depth)
  }

  predicate WorkAbove(maxDepth: int, slots: seq<Slot>, handled: seq<Visit>) {
    && (forall i :: 0 <= i < |slots| && !slots[i].Done? ==> !Cutoff(maxDepth, slots[i].depth))
    && (forall k :: 0 <= k < |handled| ==> !Cutoff(maxDepth, handled[k].depth))
  }

  /** Nothing pending, nothing running. */
  predicate Drained(s: CrawlState) {
    TQ.Idle(s.queue) && |s.slots| == 0
  }

  /** `!baseUrl || this.visitedUrls.has(baseUrl)`: no canonical form, an
      empty one (which JavaScript counts as false), or one already
      visited. */
  predicate Skipped(c: Option<string>, visited: set<string>) {
    c.None? || c.value == "" || c.value in visited
  }

  /** The synchronous prefix of a task, up to its first `await`, run the moment the
      queue starts it: an invalid or already-visited URL finishes the task
      on the spot; otherwise its canonical form is added to the visited set
      before anything is fetched. */
  function Claim(env: Env, s: CrawlState, t: CrawlTask): (r: CrawlState)
    ensures r.queue == s.queue && r.handled == s.handled && r.maxDepth == s.maxDepth
    ensures |r.slots| == |s.slots| + 1 && r.slots[..|s.slots|] == s.slots
    ensures Skipped(Canonical(env, t.url), s.visited) ==>
              r.visited == s.visited && r.slots[|s.slots|] == Done
    ensures !Skipped(Canonical(env, t.url), s.visited) ==>
              && r.visited == s.visited + {Canonical(env, t.url).value}
              && r.slots[|s.slots|] == Loading(t.url, Canonical(env, t.url).value, t.depth)
    ensures SlotsOk(env, s) ==> SlotsOk(env, r)
    ensures DepthOk(s) && !Cutoff(s.maxDepth, t.depth) ==> DepthOk(r)
  {
    var c := Canonical(env, t.url);
    if Skipped(c, s.visited) then s.(slots := s.slots + [Done])
    else s.(visited := s.visited + {c.value}, slots := s.slots + [Loading(t.url, c.value, t.depth)])
  }

  /** The tasks `crawl(urls, depth)` enqueues: one per URL, in order, all
      at `depth`. */
  function Tasks(urls: seq<string>, depth: nat): (r: seq<CrawlTask>)
    ensures |r| == |urls|
    ensures forall k :: 0 <= k < |urls| ==> r[k] == CrawlTask(urls[k], depth)
  {
    seq(|urls|, k requires 0 <= k < |urls| => CrawlTask(urls[k], depth))
  }

  /** The FIFO `after` is what is left of `before` once its first `n`
      tasks have started. */
  predicate StartedFirst(before: seq<CrawlTask>, n: int, after: seq<CrawlTask>) {
    0 <= n <= |before| && after == before[n..]
  }

  /** Run the claim of the task the queue just started, if any: the task
      the queue hands over is the task whose claim runs. */
  function Launch(env: Env, s: CrawlState, started: Option<CrawlTask>): (r: CrawlState)
    ensures started.Some? ==> r == Claim(env, s, started.value)
    ensures started.None? ==> r == s
    ensures r.queue == s.queue && r.handled == s.handled && r.maxDepth == s.maxDepth
    ensures |r.slots| == |s.slots| + |TQ.StartedList(started)|
    ensures s.visited <= r.visited
    ensures SlotsOk(env, s) ==> SlotsOk(env, r)
    ensures DepthOk(s) && (started.Some? ==> !Cutoff(s.maxDepth, started.value.depth)) ==> DepthOk(r)
  {
    if started.Some? then Claim(env, s, started.value) else s
  }

  /** `taskQueueService.enqueue(...)` for one URL in `crawl`: the task joins
      the tail of the FIFO, and a task that starts leaves from its head and
      takes a slot. */
  function Push(env: Env, s: CrawlState, t: CrawlTask): (r: CrawlState)
    ensures r.handled == s.handled && r.maxDepth == s.maxDepth && s.visited <= r.visited
    ensures Inv(env, s) ==> Inv(env, r)
    ensures DepthOk(s) && !Cutoff(s.maxDepth, t.depth) ==> DepthOk(r)
  {
    var e := TQ.Enqueue(s.queue, t);
    Requeued(env, s, s.queue.pending + [t], e.queue, e.started);
    Relaunched(env, s, e.queue, e.started);
    Launch(env, s.(queue := e.queue), e.started)
  }

  /** One enqueue: the task joins the tail of the FIFO, and a task the
      queue started came off its head and took a new slot; the existing
      slots are untouched. */
  lemma JoinsTail(env: Env, s: CrawlState, t: CrawlTask)
    ensures var r := Push(env, s, t);
      s.slots <= r.slots && StartedFirst(s.queue.pending + [t], |r.slots| - |s.slots|, r.queue.pending)
  {
    var e := TQ.Enqueue(s.queue, t);
    var n := |TQ.StartedList(e.started)|;
    assert Push(env, s, t) == Launch(env, s.(queue := e.queue), e.started);
    assert (TQ.StartedList(e.started) + e.queue.pending)[n..] == e.queue.pending;
  }

  /** Helper for `Push`: a queue that counted one more running task for
      each task it started keeps the invariant once the claim has run. */
  lemma Relaunched(env: Env, s: CrawlState, q: TQ.Queue<CrawlTask>, started: Option<CrawlTask>)
    requires q.running == s.queue.running + |TQ.StartedList(started)|
    requires TQ.Valid(s.queue) ==> TQ.Valid(q)
    ensures Inv(env, s) ==> Inv(env, Launch(env, s.(queue := q), started))
  {
    if Inv(env, s) {
      assert SlotsOk(env, s.(queue := q));
    }
  }

  /** Helper for `Push` and `Settle`: replacing the queue by one that
      started a task from `tasks` and keeps the rest pending keeps the depth
      bound when every task in `tasks` respects it. */
  lemma Requeued(env: Env, s: CrawlState, tasks: seq<CrawlTask>, q: TQ.Queue<CrawlTask>, started: Option<CrawlTask>)
    requires tasks == TQ.StartedList(started) + q.pending
    ensures (forall t :: t in tasks ==> !Cutoff(s.maxDepth, t.depth)) && DepthOk(s) ==>
              && DepthOk(s.(queue := q))
              && (started.Some? ==> !Cutoff(s.maxDepth, started.value.depth))
  {
    TQ.NothingInvented(tasks, started, q.pending);
  }

  /** `startUrls.map(url => enqueue(...))`: one task per URL, in order.
      The FIFO afterwards is the old one followed by these tasks, less the
      tasks that started from its head, each of which took a slot. */
  function PushAll(env: Env, s: CrawlState, urls: seq<string>, depth: nat): (r: CrawlState)
    ensures r.handled == s.handled && r.maxDepth == s.maxDepth && s.visited <= r.visited
    ensures Inv(env, s) ==> Inv(env, r)
    ensures DepthOk(s) && !Cutoff(s.maxDepth, depth) ==> DepthOk(r)
    decreases |urls|
  {
    if |urls| == 0 then s
    else PushAll(env, Push(env, s, CrawlTask(urls[0], depth)), urls[1..], depth)
  }

  /** One task per URL, in order: the FIFO after `PushAll` is the old one
      followed by the URLs' tasks, less the tasks that started from its
      head, each of which took a slot. */
  lemma {:induction false} PushAllIsFifo(env: Env, s: CrawlState, urls: seq<string>, depth: nat)
    ensures var r := PushAll(env, s, urls, depth);
      s.slots <= r.slots && StartedFirst(s.queue.pending + Tasks(urls, depth), |r.slots| - |s.slots|, r.queue.pending)
    decreases |urls|
  {
    if |urls| == 0 {
      assert s.queue.pending + Tasks(urls, depth) == s.queue.pending;
    } else {
      var t := CrawlTask(urls[0], depth);
      var s1 := Push(env, s, t);
      var r := PushAll(env, s1, urls[1..], depth);
      assert PushAll(env, s, urls, depth) == r;
      JoinsTail(env, s, t);
      PushAllIsFifo(env, s1, urls[1..], depth);
      FifoChain(s.queue.pending, urls, depth, |s1.slots| - |s.slots|, s1.queue.pending,
                |r.slots| - |s1.slots|, r.queue.pending);
    }
  }

  /** Helper for `PushAll`: the FIFO accounting of one push followed by
      the rest composes. */
  lemma FifoChain(p0: seq<CrawlTask>, urls: seq<string>, depth: nat,
                  n1: int, p1: seq<CrawlTask>, n2: int, p2: seq<CrawlTask>)
    requires |urls| > 0
    requires StartedFirst(p0 + [CrawlTask(urls[0], depth)], n1, p1)
    requires StartedFirst(p1 + Tasks(urls[1..], depth), n2, p2)
    ensures StartedFirst(p0 + Tasks(urls, depth), n1 + n2, p2)
  {
    TasksCons(urls, depth);
    DropChain(p0, [CrawlTask(urls[0], depth)], Tasks(urls[1..], depth), n1, p1, n2, p2);
  }

  /** `Tasks` of a non-empty list: the first URL's task, then the rest. */
  lemma TasksCons(urls: seq<string>, depth: nat)
    requires |urls| > 0
    ensures Tasks(urls, depth) == [CrawlTask(urls[0], depth)] + Tasks(urls[1..], depth)
  {
  }

  /** `crawl(startUrls, currentDepth)`: nothing at or beyond
      a non-zero `maxDepth`, otherwise one task per URL. */
  function Level(env: Env, s: CrawlState, urls: seq<string>, depth: nat): (r: CrawlState)
    ensures Cutoff(s.maxDepth, depth) ==> r == s
    ensures r.handled == s.handled && r.maxDepth == s.maxDepth && s.visited <= r.visited
    ensures Inv(env, s) ==> Inv(env, r)
    ensures DepthOk(s) ==> DepthOk(r)
  {
    if Cutoff(s.maxDepth, depth) then s else PushAll(env, s, urls, depth)
  }

  /** Below the cutoff, a level enqueues one task per URL at `depth`, in
      order, behind what was already pending. */
  lemma LevelIsFifo(env: Env, s: CrawlState, urls: seq<string>, depth: nat)
    requires !Cutoff(s.maxDepth, depth)
    ensures var r := Level(env, s, urls, depth);
      s.slots <= r.slots && StartedFirst(s.queue.pending + Tasks(urls, depth), |r.slots| - |s.slots|, r.queue.pending)
  {
    PushAllIsFifo(env, s, urls, depth);
  }

  /** The page's hrefs resolved against the page, in document order, with
      the rejected ones and those naming the page itself dropped (the `map` and
      `filter` that build `normalizedUrls`). */
  function Resolved(p: UrlParser, page: string, hrefs: seq<string>): seq<string>
    decreases |hrefs|
  {
    if |hrefs| == 0 then []
    else
      var c := Normalize(p, Some(hrefs[0]), Some(page));
      var rest := Resolved(p, page, hrefs[1..]);
      if c.Some? && c.value != page then [c.value] + rest else rest
  }

  /** The resolved links never name the page itself, keep every href that
      normalises to another URL, and hold nothing that is not the
      normalisation of some href. */
  lemma {:induction false} ResolvedLinks(p: UrlParser, page: string, hrefs: seq<string>)
    ensures forall i :: 0 <= i < |Resolved(p, page, hrefs)| ==> Resolved(p, page, hrefs)[i] != page
    ensures forall i :: 0 <= i < |hrefs| && Normalize(p, Some(hrefs[i]), Some(page)).Some?
              && Normalize(p, Some(hrefs[i]), Some(page)).value != page
              ==> Normalize(p, Some(hrefs[i]), Some(page)).value in Resolved(p, page, hrefs)
    ensures forall x :: x in Resolved(p, page, hrefs) ==>
              exists h :: h in hrefs && Normalize(p, Some(h), Some(page)) == Some(x)
    decreases |hrefs|
  {
    if |hrefs| > 0 {
      var r := Resolved(p, page, hrefs);
      var rest := Resolved(p, page, hrefs[1..]);
      var c := Normalize(p, Some(hrefs[0]), Some(page));
      ResolvedLinks(p, page, hrefs[1..]);
      assert r == (if c.Some? && c.value != page then [c.value] + rest else rest);
      assert forall i :: 1 <= i < |hrefs| ==> hrefs[i] == hrefs[1..][i - 1];
      forall x | x in r
        ensures exists h :: h in hrefs && Normalize(p, Some(h), Some(page)) == Some(x)
      {
        if x in rest {
          var h :| h in hrefs[1..] && Normalize(p, Some(h), Some(page)) == Some(x);
          assert h in hrefs;
        } else {
          assert hrefs[0] in hrefs;
        }
      }
    }
  }

  /** The child URLs of a page (`normalizedUrls`, then `uniqueUrls`): the resolved links,
      de-duplicated keeping first occurrences. */
  function Children(p: UrlParser, page: string, hrefs: seq<string>): seq<string> {
    Dedup(Resolved(p, page, hrefs))
  }

  /** The children of a page are the resolved links, each once, in the
      order of their first occurrence, and never the page itself. */
  lemma ChildrenAreFirstOccurrences(p: UrlParser, page: string, hrefs: seq<string>)
    ensures var r := Children(p, page, hrefs);
      && NoDup(r)
      && page !in r
      && (forall x :: x in r <==> x in Resolved(p, page, hrefs))
      && (forall i, j :: 0 <= i < j < |r| ==>
            FirstIndex(Resolved(p, page, hrefs), r[i]) < FirstIndex(Resolved(p, page, hrefs), r[j]))
  {
    var resolved := Resolved(p, page, hrefs);
    var r := Children(p, page, hrefs);
    ResolvedLinks(p, page, hrefs);
    assert forall x :: x in r ==> x in resolved by {
      forall x | x in r
        ensures x in resolved
      {
        var i :| 0 <= i < |r| && r[i] == x;
      }
    }
    assert forall x :: x in resolved ==> x in r by {
      forall x | x in resolved
        ensures x in r
      {
        var i :| 0 <= i < |resolved| && resolved[i] == x;
      }
    }
  }

  /** Finishing a slot that is not loading keeps the invariant. */
  lemma MarkDone(env: Env, s: CrawlState, i: nat)
    requires i < |s.slots| && !s.slots[i].Loading?
    ensures Inv(env, s) ==> Inv(env, s.(slots := s.slots[i := Done]))
  {
  }

  /** When `loadHtml` settles: a failed load ends the task;
      a loaded page goes to the handler under its canonical URL. */
  function Load(env: Env, s: CrawlState, i: nat): (r: CrawlState)
    requires i < |s.slots| && s.slots[i].Loading?
    ensures r.queue == s.queue && r.visited == s.visited && r.maxDepth == s.maxDepth
    ensures env.load(s.slots[i].page).None? ==> r.handled == s.handled && r.slots == s.slots[i := Done]
    ensures env.load(s.slots[i].page).Some? ==>
              && r.handled == s.handled + [Visit(s.slots[i].raw, s.slots[i].page, env.load(s.slots[i].page).value, s.slots[i].depth)]
              && r.slots == s.slots[i := Expanding(s.slots[i].raw, s.slots[i].page, env.load(s.slots[i].page).value, s.slots[i].depth)]
    ensures Inv(env, s) ==> Inv(env, r)
    ensures DepthOk(s) ==> DepthOk(r)
  {
    var sl := s.slots[i];
    match env.load(sl.page)
    case None => s.(slots := s.slots[i := Done])
    case Some(doc) =>
      s.(slots := s.slots[i := Expanding(sl.raw, sl.page, doc, sl.depth)],
         handled := s.handled + [Visit(sl.raw, sl.page, doc, sl.depth)])
  }

  /** After the handler's promise settles: stop when the next level would be cut
      off, otherwise crawl `kids` one level deeper. `Step` passes the
      page's `Children`. */
  function Expand(env: Env, s: CrawlState, i: nat, kids: seq<string>): (r: CrawlState)
    requires i < |s.slots| && s.slots[i].Expanding?
    ensures r.handled == s.handled && r.maxDepth == s.maxDepth && s.visited <= r.visited
    ensures Cutoff(s.maxDepth, s.slots[i].depth + 1) ==> r == s.(slots := s.slots[i := Done])
    ensures Inv(env, s) ==> Inv(env, r)
    ensures DepthOk(s) ==> DepthOk(r)
  {
    var sl := s.slots[i];
    var s1 := s.(slots := s.slots[i := Done]);
    MarkDone(env, s, i);
    if Cutoff(s.maxDepth, sl.depth + 1) then s1
    else Level(env, s1, kids, sl.depth + 1)
  }

  /** Below the cutoff, an expansion finishes its slot and queues one task
      per child URL at the next depth, in order, behind what was pending. */
  lemma ExpandIsFifo(env: Env, s: CrawlState, i: nat, kids: seq<string>)
    requires i < |s.slots| && s.slots[i].Expanding?
    requires !Cutoff(s.maxDepth, s.slots[i].depth + 1)
    ensures var r := Expand(env, s, i, kids);
      && i < |r.slots| && r.slots[i] == Done
      && StartedFirst(s.queue.pending + Tasks(kids, s.slots[i].depth + 1), |r.slots| - |s.slots|, r.queue.pending)
  {
    var s1 := s.(slots := s.slots[i := Done]);
    var r := Level(env, s1, kids, s.slots[i].depth + 1);
    assert Expand(env, s, i, kids) == r;
    LevelIsFifo(env, s1, kids, s.slots[i].depth + 1);
    assert s1.slots <= r.slots && |s1.slots| == |s.slots| && s1.queue == s.queue;
    assert r.slots[i] == s1.slots[i];
  }

  /** `xs` without its `i`-th element. */
  function RemoveAt<T>(xs: seq<T>, i: nat): (r: seq<T>)
    requires i < |xs|
    ensures |r| == |xs| - 1
    ensures forall k :: 0 <= k < |r| ==> r[k] == xs[if k < i then k else k + 1]
  {
    xs[..i] + xs[i + 1..]
  }

  /** Dropping a finished slot keeps the slot bookkeeping and the depth
      bound of the remaining slots. */
  lemma RemoveDone(env: Env, s: CrawlState, i: nat)
    requires i < |s.slots| && s.slots[i].Done?
    ensures SlotsOk(env, s) ==> SlotsOk(env, s.(slots := RemoveAt(s.slots, i)))
    ensures DepthOk(s) ==> DepthOk(s.(slots := RemoveAt(s.slots, i)))
  {
  }

  /** What a step did besides changing the state: the idle waiters it
      woke. */
  datatype Outcome = Outcome(state: CrawlState, woken: seq<nat>)

  /** A finished task's promise resolves (the tail of the queue's `run()`): the
      queue counts it out, starts the next task (whose claim runs at
      once), and wakes the waiters if that left it idle. */
  function Settle(env: Env, s: CrawlState, i: nat): (r: Outcome)
    requires i < |s.slots| && s.slots[i].Done? && s.queue.running > 0
    ensures r.state.handled == s.handled && r.state.maxDepth == s.maxDepth && s.visited <= r.state.visited
    ensures Inv(env, s) ==> Inv(env, r.state)
    ensures Inv(env, s) && |r.woken| > 0 ==> Drained(r.state)
    ensures TQ.Idle(r.state.queue) ==> r.woken == s.queue.waiters && r.state.queue.waiters == []
    ensures !TQ.Idle(r.state.queue) ==> r.woken == [] && r.state.queue.waiters == s.queue.waiters
    ensures DepthOk(s) ==> DepthOk(r.state)
  {
    var f := TQ.Finish(s.queue);
    DropFinished(env, s, i, f.queue, f.started);
    var s1 := s.(queue := f.queue, slots := RemoveAt(s.slots, i));
    Outcome(Launch(env, s1, f.started), f.released)
  }

  /** Helper for `Settle`: dropping the finished slot and taking the next
      task off the FIFO keeps the slot bookkeeping and the depth bound,
      and the started task lies above the cutoff. */
  lemma DropFinished(env: Env, s: CrawlState, i: nat, q: TQ.Queue<CrawlTask>, started: Option<CrawlTask>)
    requires i < |s.slots| && s.slots[i].Done?
    requires s.queue.pending == TQ.StartedList(started) + q.pending
    ensures var s1 := s.(queue := q, slots := RemoveAt(s.slots, i));
      && |s1.slots| == |s.slots| - 1
      && (SlotsOk(env, s) ==> SlotsOk(env, s1))
      && (DepthOk(s) ==> DepthOk(s1) && (started.Some? ==> !Cutoff(s.maxDepth, started.value.depth)))
  {
    RemoveDone(env, s, i);
    var s1 := s.(queue := q, slots := RemoveAt(s.slots, i));
    if DepthOk(s) {
      forall t | t in q.pending
        ensures !Cutoff(s1.maxDepth, t.depth)
      {
        assert t in s.queue.pending;
      }
      if started.Some? {
        assert started.value in s.queue.pending;
      }
    }
  }

  /** When a task's promise settles, the queue starts the head of the
      FIFO, if there is one, and its claim runs at once against the
      remaining slots; with nothing pending, only the finished slot goes. */
  lemma SettleClaimsHead(env: Env, s: CrawlState, i: nat)
    requires Inv(env, s)
    requires i < |s.slots| && s.slots[i].Done? && s.queue.running > 0
    ensures var r := Settle(env, s, i).state;
      |s.queue.pending| > 0 ==>
        && r.queue.pending == s.queue.pending[1..]
        && r == Claim(env, s.(queue := r.queue, slots := RemoveAt(s.slots, i)), s.queue.pending[0])
    ensures var r := Settle(env, s, i).state;
      |s.queue.pending| == 0 ==>
        r == s.(queue := r.queue, slots := RemoveAt(s.slots, i)) && r.queue.pending == []
  {
    var f := TQ.Finish(s.queue);
    assert Settle(env, s, i).state == Launch(env, s.(queue := f.queue, slots := RemoveAt(s.slots, i)), f.started);
  }

  /** `run(startUrls, options)`: set `maxDepth` (default 1)
      and crawl the seeds at depth 0. The visited set is kept. */
  function Run(env: Env, s: CrawlState, seeds: seq<string>, maxDepth: Option<int>): (r: CrawlState)
    ensures r.maxDepth == maxDepth.GetOr(1)
    ensures r.handled == s.handled && s.visited <= r.visited
    ensures Inv(env, s) ==> Inv(env, r)
    ensures DepthOk(s.(maxDepth := maxDepth.GetOr(1))) ==> DepthOk(r)
  {
    Level(env, s.(maxDepth := maxDepth.GetOr(1)), seeds, 0)
  }

  /** `crawl(startUrls, 0)`: unless a negative `maxDepth` cuts off depth
      0 itself, the seeds join the FIFO as depth-0 tasks, in order, behind
      what was pending, and only the started ones took slots. */
  lemma RunIsFifo(env: Env, s: CrawlState, seeds: seq<string>, maxDepth: Option<int>)
    ensures var r := Run(env, s, seeds, maxDepth);
      !Cutoff(maxDepth.GetOr(1), 0) ==>
        s.slots <= r.slots && StartedFirst(s.queue.pending + Tasks(seeds, 0), |r.slots| - |s.slots|, r.queue.pending)
    ensures Cutoff(maxDepth.GetOr(1), 0) ==> Run(env, s, seeds, maxDepth) == s.(maxDepth := maxDepth.GetOr(1))
  {
    var s1 := s.(maxDepth := maxDepth.GetOr(1));
    if !Cutoff(maxDepth.GetOr(1), 0) {
      LevelIsFifo(env, s1, seeds, 0);
    }
  }

  /** `onIdle()`. */
  function AwaitIdle(env: Env, s: CrawlState, waiter: nat): (r: Outcome)
    ensures r.state.handled == s.handled && r.state.visited == s.visited && r.state.maxDepth == s.maxDepth
    ensures TQ.Idle(s.queue) ==> r.state == s && r.woken == [waiter]
    ensures !TQ.Idle(s.queue) ==>
              r.state == s.(queue := s.queue.(waiters := s.queue.waiters + [waiter])) && r.woken == []
    ensures Inv(env, s) ==> Inv(env, r.state)
    ensures Inv(env, s) && |r.woken| > 0 ==> Drained(r.state)
  {
    var a := TQ.OnIdle(s.queue, waiter);
    Outcome(s.(queue := a.queue), if a.resolved then [waiter] else [])
  }

  /** What can happen next to a crawler instance: a `run` call, a page
      load settling for a started task, a handler's promise settling, a
      task's promise settling, or an `onIdle` call. */
  datatype Event =
    | Start(seeds: seq<string>, maxDepth: Option<int>)
    | LoadPage(slot: nat)
    | ExpandPage(slot: nat)
    | SettleTask(slot: nat)
    | AwaitDrain(waiter: nat)

  /** One event. An event naming a slot that is not in the matching
      stage cannot happen and leaves the state alone. */
  function Step(env: Env, s: CrawlState, e: Event): (r: Outcome)
    ensures s.handled <= r.state.handled && s.visited <= r.state.visited
    ensures !e.Start? ==> r.state.maxDepth == s.maxDepth
    ensures e.Start? ==> r.state.maxDepth == e.maxDepth.GetOr(1)
    ensures Inv(env, s) ==> Inv(env, r.state)
    ensures Inv(env, s) && |r.woken| > 0 ==> Drained(r.state)
    ensures !e.Start? && DepthOk(s) ==> DepthOk(r.state)
  {
    match e
    case Start(seeds, m) => Outcome(Run(env, s, seeds, m), [])
    case LoadPage(i) =>
      if i < |s.slots| && s.slots[i].Loading? then Outcome(Load(env, s, i), []) else Outcome(s, [])
    case ExpandPage(i) =>
      if i < |s.slots| && s.slots[i].Expanding? then
        Outcome(Expand(env, s, i, Children(env.parser, s.slots[i].page, s.slots[i].doc.hrefs)), []) else Outcome(s, [])
    case SettleTask(i) =>
      if i < |s.slots| && s.slots[i].Done? && s.queue.running > 0 then Settle(env, s, i) else Outcome(s, [])
    case AwaitDrain(w) => AwaitIdle(env, s, w)
  }

  /** When the handler's promise settles below the cutoff, the task
      finishes and queues one task per child link of its page, one level
      deeper, in order and behind what was pending. On a reachable state
      that page is the one loaded from the task's URL. */
  lemma ExpandPageQueuesChildren(env: Env, s: CrawlState, i: nat)
    requires i < |s.slots| && s.slots[i].Expanding?
    requires !Cutoff(s.maxDepth, s.slots[i].depth + 1)
    ensures var sl := s.slots[i];
      var r := Step(env, s, ExpandPage(i)).state;
      && i < |r.slots| && r.slots[i] == Done
      && StartedFirst(s.queue.pending + Tasks(Children(env.parser, sl.page, sl.doc.hrefs), sl.depth + 1),
                      |r.slots| - |s.slots|, r.queue.pending)
    ensures Inv(env, s) ==> env.load(s.slots[i].page) == Some(s.slots[i].doc)
  {
    ExpandIsFifo(env, s, i, Children(env.parser, s.slots[i].page, s.slots[i].doc.hrefs));
  }

  /** A `LoadPage` event on a task whose page loads calls the handler once
      and leaves the task holding the loaded page, so that its next event
      is the expansion of that page's links. */
  lemma LoadPageStep(env: Env, s: CrawlState, i: nat)
    requires i < |s.slots| && s.slots[i].Loading? && env.load(s.slots[i].page).Some?
    ensures var sl := s.slots[i];
      var doc := env.load(sl.page).value;
      var s1 := Step(env, s, LoadPage(i)).state;
      && s1.handled == s.handled + [Visit(sl.raw, sl.page, doc, sl.depth)]
      && s1.slots == s.slots[i := Expanding(sl.raw, sl.page, doc, sl.depth)]
      && s1.queue == s.queue && s1.maxDepth == s.maxDepth
  {
    assert Step(env, s, LoadPage(i)).state == Load(env, s, i);
  }

  /** No `run` call among the events: one run's tasks play out. */
  predicate NoStart(events: seq<Event>) {
    forall i :: 0 <= i < |events| ==> !events[i].Start?
  }

  /** Any interleaving of events, applied in order; the woken waiters are
      collected in order. The handler log only grows, the visited set only
      grows, the invariant holds throughout and, within one run, the depth
      bound does too. */
  function Execute(env: Env, s: CrawlState, events: seq<Event>): (r: Outcome)
    ensures s.handled <= r.state.handled && s.visited <= r.state.visited
    ensures Inv(env, s) ==> Inv(env, r.state)
    ensures NoStart(events) ==> r.state.maxDepth == s.maxDepth
    ensures NoStart(events) && DepthOk(s) ==> DepthOk(r.state)
    decreases |events|
  {
    if |events| == 0 then Outcome(s, [])
    else
      var o := Step(env, s, events[0]);
      assert NoStart(events) ==> NoStart(events[1..]) && !events[0].Start? by {
        if NoStart(events) {
          assert forall i :: 0 <= i < |events| - 1 ==> events[1..][i] == events[i + 1];
        }
      }
      var r := Execute(env, o.state, events[1..]);
      Outcome(r.state, o.woken + r.woken)
  }

  /** The waiter an event registers: only an `onIdle` call has one. */
  function RegisteredBy(e: Event): seq<nat> {
    if e.AwaitDrain? then [e.waiter] else []
  }

  /** The waiters the events register, in order. */
  function Registered(events: seq<Event>): seq<nat>
    decreases |events|
  {
    if |events| == 0 then [] else RegisteredBy(events[0]) + Registered(events[1..])
  }

  /** Enqueueing tasks never touches the idle waiters. */
  lemma {:induction false} PushAllKeepsWaiters(env: Env, s: CrawlState, urls: seq<string>, depth: nat)
    ensures PushAll(env, s, urls, depth).queue.waiters == s.queue.waiters
    decreases |urls|
  {
    if |urls| > 0 {
      var t := CrawlTask(urls[0], depth);
      var e := TQ.Enqueue(s.queue, t);
      var s1 := Push(env, s, t);
      assert s1 == Launch(env, s.(queue := e.queue), e.started);
      assert PushAll(env, s, urls, depth) == PushAll(env, s1, urls[1..], depth);
      PushAllKeepsWaiters(env, s1, urls[1..], depth);
    }
  }

  /** A level only enqueues, so the stored waiters stay. */
  lemma LevelKeepsWaiters(env: Env, s: CrawlState, urls: seq<string>, depth: nat)
    ensures Level(env, s, urls, depth).queue.waiters == s.queue.waiters
  {
    if !Cutoff(s.maxDepth, depth) {
      PushAllKeepsWaiters(env, s, urls, depth);
    }
  }

  /** An expansion only finishes its slot and enqueues, so the stored
      waiters stay. */
  lemma ExpandKeepsWaiters(env: Env, s: CrawlState, i: nat, kids: seq<string>)
    requires i < |s.slots| && s.slots[i].Expanding?
    ensures Expand(env, s, i, kids).queue.waiters == s.queue.waiters
  {
    var s1 := s.(slots := s.slots[i := Done]);
    assert Cutoff(s.maxDepth, s.slots[i].depth + 1) || Expand(env, s, i, kids) == Level(env, s1, kids, s.slots[i].depth + 1);
    LevelKeepsWaiters(env, s1, kids, s.slots[i].depth + 1);
  }

  /** A `run` call, a page load or a handler settling wakes nobody and
      leaves the stored waiters as they were. */
  lemma WorkKeepsWaiters(env: Env, s: CrawlState, e: Event)
    requires e.Start? || e.LoadPage? || e.ExpandPage?
    ensures Step(env, s, e).woken == [] && Step(env, s, e).state.queue.waiters == s.queue.waiters
  {
    if e.Start? {
      assert Step(env, s, e) == Outcome(Run(env, s, e.seeds, e.maxDepth), []);
      LevelKeepsWaiters(env, s.(maxDepth := e.maxDepth.GetOr(1)), e.seeds, 0);
    } else if e.ExpandPage? && e.slot < |s.slots| && s.slots[e.slot].Expanding? {
      var kids := Children(env.parser, s.slots[e.slot].page, s.slots[e.slot].doc.hrefs);
      assert Step(env, s, e) == Outcome(Expand(env, s, e.slot, kids), []);
      ExpandKeepsWaiters(env, s, e.slot, kids);
    }
  }

  /** Every waiter an event registers, and every waiter registered before
      it, is afterwards either woken by it or still registered, and no
      other waiter is woken. */
  lemma StepAccountsForWaiters(env: Env, s: CrawlState, e: Event)
    ensures var r := Step(env, s, e);
      multiset(s.queue.waiters) + multiset(RegisteredBy(e))
        == multiset(r.woken) + multiset(r.state.queue.waiters)
  {
    var r := Step(env, s, e);
    if e.Start? || e.LoadPage? || e.ExpandPage? {
      WorkKeepsWaiters(env, s, e);
      assert RegisteredBy(e) == [] && r.woken == [];
    } else if e.SettleTask? {
      assert RegisteredBy(e) == [];
      if !(e.slot < |s.slots| && s.slots[e.slot].Done? && s.queue.running > 0) {
        assert r == Outcome(s, []);
      }
    } else {
      assert r == AwaitIdle(env, s, e.waiter);
    }
  }

  /** Over any interleaving, every `onIdle` caller is either woken or still
      registered, and every woken waiter was registered: the waiters before
      plus those the events register are exactly, as a multiset, those
      woken plus those still waiting. */
  lemma {:induction false} ExecuteAccountsForWaiters(env: Env, s: CrawlState, events: seq<Event>)
    ensures var r := Execute(env, s, events);
      multiset(s.queue.waiters) + multiset(Registered(events))
        == multiset(r.woken) + multiset(r.state.queue.waiters)
    decreases |events|
  {
    if |events| == 0 {
      assert Execute(env, s, events) == Outcome(s, []);
      assert Registered(events) == [];
    } else {
      var o := Step(env, s, events[0]);
      var r := Execute(env, o.state, events[1..]);
      assert Execute(env, s, events) == Outcome(r.state, o.woken + r.woken);
      assert Registered(events) == RegisteredBy(events[0]) + Registered(events[1..]);
      StepAccountsForWaiters(env, s, events[0]);
      ExecuteAccountsForWaiters(env, o.state, events[1..]);
      var w0, w1, w2 := multiset(s.queue.waiters), multiset(o.state.queue.waiters), multiset(r.state.queue.waiters);
      var g0, g1 := multiset(RegisteredBy(events[0])), multiset(Registered(events[1..]));
      var k0, k1 := multiset(o.woken), multiset(r.woken);
      calc {
        w0 + multiset(Registered(events));
        w0 + (g0 + g1);
        (w0 + g0) + g1;
        (k0 + w1) + g1;
        k0 + (w1 + g1);
        k0 + (k1 + w2);
        (k0 + k1) + w2;
        multiset(o.woken + r.woken) + w2;
      }
    }
  }

  /** A crawler instance before its first run satisfies the invariant,
      whatever was visited before. */
  lemma FreshStateIsValid(env: Env, visited: set<string>)
    ensures Inv(env, FreshState(visited)) && DepthOk(FreshState(visited))
  {
  }

  /** The handler is called at most once per canonical URL, across all
      runs on one instance and every interleaving of their tasks; it
      always receives the canonical form of the task's URL and the page
      loaded from it, and never a URL visited before the first run. */
  lemma AtMostOncePerUrl(env: Env, visited: set<string>, events: seq<Event>)
    ensures var h := Execute(env, FreshState(visited), events).state.handled;
      && NoDup(HandledUrls(h))
      && (forall k :: 0 <= k < |h| ==> Canonical(env, h[k].raw) == Some(h[k].url))
      && (forall k :: 0 <= k < |h| ==> env.load(h[k].url) == Some(h[k].doc))
      && (forall k :: 0 <= k < |h| ==> h[k].url !in visited)
  {
    FreshStateIsValid(env, visited);
    ExecuteUnvisited(env, FreshState(visited), events, visited, 0);
  }

  /** Within one run, no handler call, started task or pending task is at
      or beyond a non-zero `maxDepth` (an unset one counting as 1). */
  lemma DepthCutoff(env: Env, visited: set<string>, seeds: seq<string>, maxDepth: Option<int>, events: seq<Event>)
    requires NoStart(events)
    ensures var s := Execute(env, Run(env, FreshState(visited), seeds, maxDepth), events).state;
      && s.maxDepth == maxDepth.GetOr(1)
      && (forall k :: 0 <= k < |s.handled| ==> !Cutoff(maxDepth.GetOr(1), s.handled[k].depth))
      && (forall t :: t in s.queue.pending ==> !Cutoff(maxDepth.GetOr(1), t.depth))
  {
  }

  /** Every task, started task and handler call of the state came from
      one of the given URLs. */
  predicate FromSeeds(s: CrawlState, seeds: seq<string>) {
    PendingFrom(s.queue.pending, seeds) && WorkFrom(s.slots, s.handled, seeds)
  }

  predicate PendingFrom(pending: seq<CrawlTask>, seeds: seq<string>) {
    forall t :: t in pending ==> t.url in seeds
  }

  predicate WorkFrom(slots: seq<Slot>, handled: seq<Visit>, seeds: seq<string>) {
    && (forall i :: 0 <= i < |slots| && !slots[i].Done? ==> slots[i].raw in seeds)
    && (forall k :: 0 <= k < |handled| ==> handled[k].raw in seeds)
  }

  lemma LaunchFromSeeds(env: Env, s: CrawlState, started: Option<CrawlTask>, seeds: seq<string>)
    requires FromSeeds(s, seeds) && (started.Some? ==> started.value.url in seeds)
    ensures FromSeeds(Launch(env, s, started), seeds)
  {
    if started.Some? {
      var r := Claim(env, s, started.value);
      assert forall i :: 0 <= i < |s.slots| ==> r.slots[i] == s.slots[i];
    }
  }

  lemma PushFromSeeds(env: Env, s: CrawlState, t: CrawlTask, seeds: seq<string>)
    requires FromSeeds(s, seeds) && t.url in seeds
    ensures FromSeeds(Push(env, s, t), seeds)
  {
    var e := TQ.Enqueue(s.queue, t);
    TQ.NothingInvented(s.queue.pending + [t], e.started, e.queue.pending);
    LaunchFromSeeds(env, s.(queue := e.queue), e.started, seeds);
  }

  lemma {:induction false} PushAllFromSeeds(env: Env, s: CrawlState, urls: seq<string>, depth: nat, seeds: seq<string>)
    requires FromSeeds(s, seeds) && forall u :: u in urls ==> u in seeds
    ensures FromSeeds(PushAll(env, s, urls, depth), seeds)
    decreases |urls|
  {
    if |urls| > 0 {
      var t := CrawlTask(urls[0], depth);
      PushFromSeeds(env, s, t, seeds);
      var s1 := Push(env, s, t);
      assert PushAll(env, s, urls, depth) == PushAll(env, s1, urls[1..], depth);
      PushAllFromSeeds(env, s1, urls[1..], depth, seeds);
    }
  }

  /** With `maxDepth` 1 no page is expanded, so nothing but the seeds is
      ever queued, started or handled. */
  lemma StepFromSeeds(env: Env, s: CrawlState, e: Event, seeds: seq<string>)
    requires !e.Start? && s.maxDepth == 1 && FromSeeds(s, seeds)
    ensures FromSeeds(Step(env, s, e).state, seeds)
  {
    match e
    case LoadPage(i) =>
    case ExpandPage(i) =>
      if i < |s.slots| && s.slots[i].Expanding? {
        ExpandFromSeeds(env, s, i, Children(env.parser, s.slots[i].page, s.slots[i].doc.hrefs), seeds);
      }
    case SettleTask(i) =>
      if i < |s.slots| && s.slots[i].Done? && s.queue.running > 0 {
        SettleFromSeeds(env, s, i, seeds);
      }
    case AwaitDrain(w) =>
  }

  /** Helper for `StepFromSeeds`: with `maxDepth` 1 an expansion only
      finishes its slot. */
  lemma ExpandFromSeeds(env: Env, s: CrawlState, i: nat, kids: seq<string>, seeds: seq<string>)
    requires i < |s.slots| && s.slots[i].Expanding?
    requires s.maxDepth == 1 && FromSeeds(s, seeds)
    ensures FromSeeds(Expand(env, s, i, kids), seeds)
  {
    assert Cutoff(s.maxDepth, s.slots[i].depth + 1);
  }

  /** Helper for `StepFromSeeds`: settling starts only a task that was
      pending. */
  lemma SettleFromSeeds(env: Env, s: CrawlState, i: nat, seeds: seq<string>)
    requires i < |s.slots| && s.slots[i].Done? && s.queue.running > 0
    requires FromSeeds(s, seeds)
    ensures FromSeeds(Settle(env, s, i).state, seeds)
  {
    var f := TQ.Finish(s.queue);
    TQ.NothingInvented(s.queue.pending, f.started, f.queue.pending);
    var s1 := s.(queue := f.queue, slots := RemoveAt(s.slots, i));
    LaunchFromSeeds(env, s1, f.started, seeds);
  }

  lemma {:induction false} ExecuteFromSeeds(env: Env, s: CrawlState, events: seq<Event>, seeds: seq<string>)
    requires NoStart(events) && s.maxDepth == 1 && FromSeeds(s, seeds)
    ensures FromSeeds(Execute(env, s, events).state, seeds)
    decreases |events|
  {
    if |events| > 0 {
      StepFromSeeds(env, s, events[0], seeds);
      assert forall i :: 0 <= i < |events| - 1 ==> events[1..][i] == events[i + 1];
      ExecuteFromSeeds(env, Step(env, s, events[0]).state, events[1..], seeds);
    }
  }

  /** A valid state whose handler calls all came from one URL has handled
      that URL's canonical form at most once and nothing else. */
  lemma OneSeedHandled(env: Env, s: CrawlState, seed: string)
    requires Inv(env, s) && FromSeeds(s, [seed])
    ensures |s.handled| <= 1
    ensures forall k :: 0 <= k < |s.handled| ==> Some(s.handled[k].url) == Canonical(env, seed)
  {
    var urls := HandledUrls(s.handled);
    forall k | 0 <= k < |urls|
      ensures Some(urls[k]) == Canonical(env, seed)
    {
      assert s.handled[k].raw in [seed];
    }
    if |urls| > 0 {
      AllSameNoDup(urls, urls[0]);
    }
  }

  /** A run with `maxDepth` 1 from a single URL handles at most one page:
      the canonical form of that URL, at depth 0. */
  lemma SingleSeedRun(env: Env, visited: set<string>, seed: string, events: seq<Event>)
    requires NoStart(events)
    ensures var h := Execute(env, Run(env, FreshState(visited), [seed], Some(1)), events).state.handled;
      && |h| <= 1
      && (forall k :: 0 <= k < |h| ==> Some(h[k].url) == Canonical(env, seed) && h[k].depth == 0)
  {
    var s := Execute(env, Run(env, FreshState(visited), [seed], Some(1)), events).state;
    SeedRunFromSeed(env, visited, seed, events);
    OneSeedHandled(env, s, seed);
    DepthCutoff(env, visited, [seed], Some(1), events);
  }

  /** Helper for `SingleSeedRun`: every task of such a run came from the
      one URL, and the run keeps the invariant. */
  lemma SeedRunFromSeed(env: Env, visited: set<string>, seed: string, events: seq<Event>)
    requires NoStart(events)
    ensures var s := Execute(env, Run(env, FreshState(visited), [seed], Some(1)), events).state;
      Inv(env, s) && FromSeeds(s, [seed])
  {
    var s0 := FreshState(visited).(maxDepth := 1);
    FreshStateIsValid(env, visited);
    PushAllFromSeeds(env, s0, [seed], 0, [seed]);
    var s1 := Run(env, FreshState(visited), [seed], Some(1));
    assert s1 == PushAll(env, s0, [seed], 0);
    ExecuteFromSeeds(env, s1, events, [seed]);
  }

  /** The slot at `i` is waiting for the page `c` to load. */
  predicate LoadingAt(slots: seq<Slot>, i: int, c: string) {
    0 <= i < |slots| && slots[i].Loading? && slots[i].page == c
  }

  /** The handler call at `k` received `c`. */
  predicate HandledAt(handled: seq<Visit>, k: int, c: string) {
    0 <= k < |handled| && handled[k].url == c
  }

  /** The page `c` has been handled, or a started task is about to load
      it. */
  ghost predicate Tracked(slots: seq<Slot>, handled: seq<Visit>, c: string) {
    (exists k :: HandledAt(handled, k, c)) || (exists i :: LoadingAt(slots, i, c))
  }

  lemma TrackLaunch(env: Env, s: CrawlState, started: Option<CrawlTask>, c: string)
    requires Tracked(s.slots, s.handled, c)
    ensures var r := Launch(env, s, started); Tracked(r.slots, r.handled, c)
  {
    var r := Launch(env, s, started);
    if started.Some? && exists i :: LoadingAt(s.slots, i, c) {
      var i :| LoadingAt(s.slots, i, c);
      assert r.slots[..|s.slots|] == s.slots;
      assert r.slots[i] == s.slots[..|s.slots|][i];
      assert LoadingAt(r.slots, i, c);
    }
  }

  lemma TrackPush(env: Env, s: CrawlState, t: CrawlTask, c: string)
    requires Tracked(s.slots, s.handled, c)
    ensures var r := Push(env, s, t); Tracked(r.slots, r.handled, c)
  {
    var e := TQ.Enqueue(s.queue, t);
    TrackLaunch(env, s.(queue := e.queue), e.started, c);
  }

  lemma {:induction false} TrackPushAll(env: Env, s: CrawlState, urls: seq<string>, depth: nat, c: string)
    requires Tracked(s.slots, s.handled, c)
    ensures var r := PushAll(env, s, urls, depth); Tracked(r.slots, r.handled, c)
    decreases |urls|
  {
    if |urls| > 0 {
      var t := CrawlTask(urls[0], depth);
      TrackPush(env, s, t, c);
      TrackPushAll(env, Push(env, s, t), urls[1..], depth, c);
    }
  }

  lemma TrackLevel(env: Env, s: CrawlState, urls: seq<string>, depth: nat, c: string)
    requires Tracked(s.slots, s.handled, c)
    ensures var r := Level(env, s, urls, depth); Tracked(r.slots, r.handled, c)
  {
    if !Cutoff(s.maxDepth, depth) {
      TrackPushAll(env, s, urls, depth, c);
    }
  }

  /** A loading slot leaves that stage only through its load, and a
      loadable page then reaches the handler. */
  lemma TrackLoad(env: Env, s: CrawlState, i: nat, c: string)
    requires i < |s.slots| && s.slots[i].Loading?
    requires env.load(c).Some? && Tracked(s.slots, s.handled, c)
    ensures var r := Load(env, s, i); Tracked(r.slots, r.handled, c)
  {
    var r := Load(env, s, i);
    if exists k :: HandledAt(s.handled, k, c) {
      var k :| HandledAt(s.handled, k, c);
      assert HandledAt(r.handled, k, c);
    } else {
      var j :| LoadingAt(s.slots, j, c);
      if j == i {
        assert HandledAt(r.handled, |s.handled|, c);
      } else {
        assert LoadingAt(r.slots, j, c);
      }
    }
  }

  lemma TrackExpand(env: Env, s: CrawlState, i: nat, kids: seq<string>, c: string)
    requires i < |s.slots| && s.slots[i].Expanding?
    requires Tracked(s.slots, s.handled, c)
    ensures var r := Expand(env, s, i, kids); Tracked(r.slots, r.handled, c)
  {
    var s1 := s.(slots := s.slots[i := Done]);
    if exists j :: LoadingAt(s.slots, j, c) {
      var j :| LoadingAt(s.slots, j, c);
      assert LoadingAt(s1.slots, j, c);
    }
    assert Expand(env, s, i, kids) == Level(env, s1, kids, s.slots[i].depth + 1);
    TrackLevel(env, s1, kids, s.slots[i].depth + 1, c);
  }

  lemma TrackSettle(env: Env, s: CrawlState, i: nat, c: string)
    requires i < |s.slots| && s.slots[i].Done? && s.queue.running > 0
    requires Tracked(s.slots, s.handled, c)
    ensures var r := Settle(env, s, i).state; Tracked(r.slots, r.handled, c)
  {
    var f := TQ.Finish(s.queue);
    var s1 := s.(queue := f.queue, slots := RemoveAt(s.slots, i));
    if exists j :: LoadingAt(s.slots, j, c) {
      var j :| LoadingAt(s.slots, j, c);
      assert LoadingAt(s1.slots, if j < i then j else j - 1, c);
    }
    TrackLaunch(env, s1, f.started, c);
  }

  lemma TrackStep(env: Env, s: CrawlState, e: Event, c: string)
    requires env.load(c).Some? && Tracked(s.slots, s.handled, c)
    ensures var r := Step(env, s, e).state; Tracked(r.slots, r.handled, c)
  {
    match e
    case Start(seeds, m) =>
      TrackLevel(env, s.(maxDepth := m.GetOr(1)), seeds, 0, c);
    case LoadPage(i) =>
      if i < |s.slots| && s.slots[i].Loading? {
        TrackLoad(env, s, i, c);
      }
    case ExpandPage(i) =>
      if i < |s.slots| && s.slots[i].Expanding? {
        TrackExpand(env, s, i, Children(env.parser, s.slots[i].page, s.slots[i].doc.hrefs), c);
      }
    case SettleTask(i) =>
      if i < |s.slots| && s.slots[i].Done? && s.queue.running > 0 {
        TrackSettle(env, s, i, c);
      }
    case AwaitDrain(w) =>
  }

  /** Once a loadable page is claimed, every interleaving either has
      handled it or still has its task waiting for the load. */
  lemma {:induction false} TrackExecute(env: Env, s: CrawlState, events: seq<Event>, c: string)
    requires env.load(c).Some? && Tracked(s.slots, s.handled, c)
    ensures var r := Execute(env, s, events).state; Tracked(r.slots, r.handled, c)
    decreases |events|
  {
    if |events| > 0 {
      TrackStep(env, s, events[0], c);
      TrackExecute(env, Step(env, s, events[0]).state, events[1..], c);
    }
  }

  /** `run([seed], { maxDepth: 1 })` on an instance with nothing in flight
      claims the seed at once when it is a new, non-empty canonical URL. */
  lemma SeedClaimed(env: Env, visited: set<string>, seed: string)
    requires !Skipped(Canonical(env, seed), visited)
    ensures var s := Run(env, FreshState(visited), [seed], Some(1));
      LoadingAt(s.slots, 0, Canonical(env, seed).value)
  {
    var s0 := FreshState(visited).(maxDepth := 1);
    var t := CrawlTask(seed, 0);
    var e := TQ.Enqueue(s0.queue, t);
    assert e.started == Some(t);
    assert Run(env, FreshState(visited), [seed], Some(1)) == PushAll(env, s0, [seed], 0);
    assert [seed][1..] == [];
    assert PushAll(env, s0, [seed], 0) == PushAll(env, Push(env, s0, t), [], 0);
  }

  /** The converse of `SingleSeedRun`: once a run with `maxDepth` 1 from a
      new, loadable URL has drained, the handler was called exactly once,
      with that URL's canonical form and the page loaded from it, at
      depth 0. */
  lemma SingleSeedHandled(env: Env, visited: set<string>, seed: string, events: seq<Event>)
    requires NoStart(events)
    ensures var s := Execute(env, Run(env, FreshState(visited), [seed], Some(1)), events).state;
      var c := Canonical(env, seed);
      Drained(s) && !Skipped(c, visited) && env.load(c.value).Some? ==>
        && |s.handled| == 1
        && s.handled[0].url == c.value
        && s.handled[0].doc == env.load(c.value).value
        && s.handled[0].depth == 0
  {
    var s1 := Run(env, FreshState(visited), [seed], Some(1));
    var s := Execute(env, s1, events).state;
    var c := Canonical(env, seed);
    if Drained(s) && !Skipped(c, visited) && env.load(c.value).Some? {
      SeedClaimed(env, visited, seed);
      TrackExecute(env, s1, events, c.value);
      SingleSeedRun(env, visited, seed, events);
      SeedRunFromSeed(env, visited, seed, events);
      var k :| HandledAt(s.handled, k, c.value);
      assert k == 0;
    }
  }

  /** Nothing claimed or handled after the log had `logged` entries was
      in `before`, and the visited set has only grown from `before`. */
  predicate Unvisited(s: CrawlState, before: set<string>, logged: nat) {
    before <= s.visited && NewWork(s.slots, s.handled, before, logged)
  }

  predicate NewWork(slots: seq<Slot>, handled: seq<Visit>, before: set<string>, logged: nat) {
    && logged <= |handled|
    && (forall i :: 0 <= i < |slots| && !slots[i].Done? ==> slots[i].page !in before)
    && (forall k :: logged <= k < |handled| ==> handled[k].url !in before)
  }

  lemma LaunchUnvisited(env: Env, s: CrawlState, started: Option<CrawlTask>, before: set<string>, logged: nat)
    requires Unvisited(s, before, logged)
    ensures Unvisited(Launch(env, s, started), before, logged)
  {
    if started.Some? {
      var r := Claim(env, s, started.value);
      assert forall i :: 0 <= i < |s.slots| ==> r.slots[i] == s.slots[i];
    }
  }

  lemma PushUnvisited(env: Env, s: CrawlState, t: CrawlTask, before: set<string>, logged: nat)
    requires Unvisited(s, before, logged)
    ensures Unvisited(Push(env, s, t), before, logged)
  {
    var e := TQ.Enqueue(s.queue, t);
    LaunchUnvisited(env, s.(queue := e.queue), e.started, before, logged);
  }

  lemma {:induction false} PushAllUnvisited(env: Env, s: CrawlState, urls: seq<string>, depth: nat,
                                            before: set<string>, logged: nat)
    requires Unvisited(s, before, logged)
    ensures Unvisited(PushAll(env, s, urls, depth), before, logged)
    decreases |urls|
  {
    if |urls| > 0 {
      var t := CrawlTask(urls[0], depth);
      PushUnvisited(env, s, t, before, logged);
      PushAllUnvisited(env, Push(env, s, t), urls[1..], depth, before, logged);
    }
  }

  lemma SettleUnvisited(env: Env, s: CrawlState, i: nat, before: set<string>, logged: nat)
    requires i < |s.slots| && s.slots[i].Done? && s.queue.running > 0
    requires Unvisited(s, before, logged)
    ensures Unvisited(Settle(env, s, i).state, before, logged)
  {
    var f := TQ.Finish(s.queue);
    var s1 := s.(queue := f.queue, slots := RemoveAt(s.slots, i));
    LaunchUnvisited(env, s1, f.started, before, logged);
  }

  lemma ExpandUnvisited(env: Env, s: CrawlState, i: nat, kids: seq<string>, before: set<string>, logged: nat)
    requires i < |s.slots| && s.slots[i].Expanding?
    requires Unvisited(s, before, logged)
    ensures Unvisited(Expand(env, s, i, kids), before, logged)
  {
    DoneIsNotNew(s, before, logged, i);
    LevelUnvisited(env, s.(slots := s.slots[i := Done]), kids, s.slots[i].depth + 1, before, logged);
  }

  lemma LevelUnvisited(env: Env, s: CrawlState, urls: seq<string>, depth: nat, before: set<string>, logged: nat)
    requires Unvisited(s, before, logged)
    ensures Unvisited(Level(env, s, urls, depth), before, logged)
  {
    if !Cutoff(s.maxDepth, depth) {
      PushAllUnvisited(env, s, urls, depth, before, logged);
    }
  }

  lemma DoneIsNotNew(s: CrawlState, before: set<string>, logged: nat, i: nat)
    requires i < |s.slots| && Unvisited(s, before, logged)
    ensures Unvisited(s.(slots := s.slots[i := Done]), before, logged)
  {
  }

  lemma StepUnvisited(env: Env, s: CrawlState, e: Event, before: set<string>, logged: nat)
    requires Unvisited(s, before, logged)
    ensures Unvisited(Step(env, s, e).state, before, logged)
  {
    match e
    case Start(seeds, m) =>
      var s1 := s.(maxDepth := m.GetOr(1));
      if !Cutoff(s1.maxDepth, 0) {
        PushAllUnvisited(env, s1, seeds, 0, before, logged);
      }
    case LoadPage(i) =>
    case ExpandPage(i) =>
      if i < |s.slots| && s.slots[i].Expanding? {
        ExpandUnvisited(env, s, i, Children(env.parser, s.slots[i].page, s.slots[i].doc.hrefs), before, logged);
      }
    case SettleTask(i) =>
      if i < |s.slots| && s.slots[i].Done? && s.queue.running > 0 {
        SettleUnvisited(env, s, i, before, logged);
      }
    case AwaitDrain(w) =>
  }

  lemma {:induction false} ExecuteUnvisited(env: Env, s: CrawlState, events: seq<Event>, before: set<string>, logged: nat)
    requires Unvisited(s, before, logged)
    ensures Unvisited(Execute(env, s, events).state, before, logged)
    decreases |events|
  {
    if |events| > 0 {
      StepUnvisited(env, s, events[0], before, logged);
      ExecuteUnvisited(env, Step(env, s, events[0]).state, events[1..], before, logged);
    }
  }

  /** A URL visited by the time no task is in flight (say, after a run has
      drained) is never handled again by anything that follows: on a
      long-lived instance, later runs skip the pages of earlier ones. */
  lemma NeverRevisited(env: Env, s: CrawlState, events: seq<Event>)
    requires forall i :: 0 <= i < |s.slots| ==> s.slots[i].Done?
    ensures var r := Execute(env, s, events).state;
      forall k :: |s.handled| <= k < |r.handled| ==> r.handled[k].url !in s.visited
  {
    ExecuteUnvisited(env, s, events, s.visited, |s.handled|);
  }
}

=== FILE: crawler_controller.dfy ===
/** `CrawlerController` (src/crawler/crawler.controller.ts): the options each
    endpoint hands to `run`, the two handler closures, and the answers the
    endpoints give once their `onIdle` waiter is woken. */
module CrawlerController {
  import opened Wrappers
  import opened Text
  import opened Sequences
  import opened Crawler

  /** The cap on the summary text (`slice(0, 1000)`). */
  const TextLimit: nat := 1000

  /** The fixed `category` of a crawled page. */
  const WebPageCategory: string := "webpage"

  /** The `CrawledWebPageDto` that `crawlOneWebPage` fills. */
  datatype CrawledPage = CrawledPage(
    url: string,
    title: string,
    description: string,
    category: string,
    text: string,
    wholePage: string)

  /** The part of `CrawlerOptions` other than the handler. */
  datatype CrawlerOptions = CrawlerOptions(maxDepth: Option<int>)

  /** The options of `crawlOneWebPage`: the seed level only. */
  const CrawlOneOptions: CrawlerOptions := CrawlerOptions(Some(1))

  /** The options of `depthCrawlWebPageUrls`: the requested depth, as it
      is. */
  function DepthCrawlOptions(depth: int): (o: CrawlerOptions)
    ensures o.maxDepth.Some? && o.maxDepth.value == depth
  {
    CrawlerOptions(Some(depth))
  }

  /** `$('body').text().replace(/\s+/g, ' ').trim().slice(0, 1000)`: at
      most 1000 characters, every whitespace character a plain space, never
      two spaces in a row, no leading space, empty only for a blank body,
      and the visible characters of the body in order, cut short only by
      the cap. Precisely, it is the first `min(1000, n)` characters of the
      collapsed and trimmed body of length `n`. */
  function SummaryText(body: string): (r: string)
    ensures var t := Trim(CollapseWhitespace(body));
      r <= t && |r| == if |t| <= TextLimit then |t| else TextLimit
    ensures |body| <= TextLimit ==> Words(r) == Words(body)
    ensures |r| <= TextLimit
    ensures SingleSpaced(r)
    ensures |r| > 0 ==> !IsSpace(r[0])
    ensures |r| == 0 <==> Blank(body)
    ensures Visible(r) <= Visible(body)
    ensures |body| <= TextLimit ==> Visible(r) == Visible(body)
  {
    var t := Trim(CollapseWhitespace(body));
    TrimmedCollapsedSpacing(body);
    TrimmedCollapsedContent(body);
    CutKeepsShape(t, body);
    SameWords(body);
    Take(t, TextLimit)
  }

  /** Helper for `SummaryText`: collapsing then trimming leaves single
      plain spaces and no leading space. */
  lemma TrimmedCollapsedSpacing(body: string)
    ensures var t := Trim(CollapseWhitespace(body));
      && SingleSpaced(t)
      && (|t| > 0 ==> !IsSpace(t[0]))
  {
    var c := CollapseWhitespace(body);
    SliceKeepsSpacing(c, LeadingSpaces(c), |Trim(c)|);
  }

  /** Helper for `SummaryText`: collapsing then trimming keeps the visible
      characters, shortens, and empties only blank input. */
  lemma TrimmedCollapsedContent(body: string)
    ensures var t := Trim(CollapseWhitespace(body));
      && |t| <= |body|
      && (|t| == 0 <==> Blank(body))
      && Visible(t) == Visible(body)
  {
    var c := CollapseWhitespace(body);
    TrimKeepsVisible(c);
    BlankIffNoVisible(body);
    BlankIffNoVisible(c);
  }

  /** Helper for `SummaryText`: collapsing then trimming keeps the
      words. */
  lemma SameWords(body: string)
    ensures Words(Trim(CollapseWhitespace(body))) == Words(body)
  {
    CollapseKeepsWords(body);
    TrimKeepsWords(CollapseWhitespace(body));
  }

  /** Helper for `SummaryText`: what the cap keeps of trimmed, collapsed
      text. */
  lemma CutKeepsShape(t: string, body: string)
    requires SingleSpaced(t)
    requires |t| > 0 ==> !IsSpace(t[0])
    requires |t| <= |body| && (|t| == 0 <==> Blank(body))
    requires Visible(t) == Visible(body)
    ensures var r := Take(t, TextLimit);
      && |r| <= TextLimit
      && SingleSpaced(r)
      && (|r| > 0 ==> !IsSpace(r[0]))
      && (|r| == 0 <==> Blank(body))
      && Visible(r) <= Visible(body)
      && (|body| <= TextLimit ==> Visible(r) == Visible(body))
  {
    var r := Take(t, TextLimit);
    SliceKeepsSpacing(t, 0, |r|);
    assert t[0..|r|] == r;
    assert t == r + t[|r|..];
    VisibleAppend(r, t[|r|..]);
  }

  /** Helper for `SummaryText`: a slice of collapsed text is still
      collapsed. */
  lemma SliceKeepsSpacing(c: string, a: nat, n: nat)
    requires a + n <= |c|
    requires SingleSpaced(c)
    ensures SingleSpaced(c[a..a + n])
  {
    var t := c[a..a + n];
    assert forall i :: 0 <= i < |t| ==> t[i] == c[a + i];
  }

  /** `$("meta[name='description']").attr('content')?.trim() || ''`: the
      trimmed content, empty when the content is absent or blank. */
  function Description(content: Option<string>): (r: string)
    ensures content.Some? ==> r == Trim(content.value)
    ensures r == "" <==> content.None? || Blank(content.value)
    ensures |r| > 0 ==> !IsSpace(r[0]) && !IsSpace(r[|r| - 1])
    ensures content.Some? ==> Visible(r) == Visible(content.value)
  {
    match content
    case None => ""
    case Some(c) => TrimKeepsVisible(c); Trim(c)
  }

  /** What the one-page handler writes into the result for one call. */
  function Summarize(pageUrl: string, doc: Document): (p: CrawledPage)
    ensures p.url == pageUrl && p.category == WebPageCategory
    ensures p.title == Trim(doc.title)
    ensures p.description == Description(doc.metaDescription)
    ensures p.text == SummaryText(doc.bodyText)
    ensures Visible(p.title) == Visible(doc.title)
    ensures |p.title| > 0 ==> !IsSpace(p.title[0]) && !IsSpace(p.title[|p.title| - 1])
    ensures p.description == "" <==> doc.metaDescription.None? || Blank(doc.metaDescription.value)
    ensures |p.text| <= TextLimit && Visible(p.text) <= Visible(doc.bodyText)
    ensures doc.rootHtml.None? ==> p.wholePage == ""
    ensures doc.rootHtml.Some? ==> p.wholePage == doc.rootHtml.value
  {
    TrimKeepsVisible(doc.title);
    CrawledPage(pageUrl, Trim(doc.title), Description(doc.metaDescription), WebPageCategory,
                SummaryText(doc.bodyText), doc.rootHtml.GetOr(""))
  }

  /** The one-page handler applied to each call in turn: every call
      overwrites all six fields of the shared result (`None` is the empty
      DTO the endpoint starts from). */
  function Filled(result: Option<CrawledPage>, calls: seq<Visit>): Option<CrawledPage>
    decreases |calls|
  {
    if |calls| == 0 then result
    else Filled(Some(Summarize(calls[0].url, calls[0].doc)), calls[1..])
  }

  /** The last handler call decides the whole result; with no call the
      DTO stays empty. */
  lemma {:induction false} LastCallWins(result: Option<CrawledPage>, calls: seq<Visit>)
    ensures |calls| == 0 ==> Filled(result, calls) == result
    ensures |calls| > 0 ==>
              Filled(result, calls) == Some(Summarize(calls[|calls| - 1].url, calls[|calls| - 1].doc))
    decreases |calls|
  {
    if |calls| > 1 {
      LastCallWins(Some(Summarize(calls[0].url, calls[0].doc)), calls[1..]);
      assert calls[1..][|calls| - 2] == calls[|calls| - 1];
    }
  }

  /** The URL-list handler applied to each call in turn: `results.push`. */
  function Collected(results: seq<string>, calls: seq<Visit>): seq<string>
    decreases |calls|
  {
    if |calls| == 0 then results
    else Collected(results + [calls[0].url], calls[1..])
  }

  /** The list holds exactly one entry per handler call, the URL the call
      received, in call order. */
  lemma {:induction false} CollectedIsCallOrder(results: seq<string>, calls: seq<Visit>)
    ensures Collected(results, calls) == results + HandledUrls(calls)
    decreases |calls|
  {
    if |calls| > 0 {
      CollectedIsCallOrder(results + [calls[0].url], calls[1..]);
      assert HandledUrls(calls) == [calls[0].url] + HandledUrls(calls[1..]);
    }
  }

  /** `crawlOneWebPage(url)` on an instance whose visited set is `visited`:
      the run with `maxDepth` 1 from the single URL, any interleaving of its
      tasks, and the result the handler left behind. At any point the
      result is either empty or the summary of the URL's canonical form and
      the page loaded from it; it is empty when that URL was visited
      before. Once the crawler has drained, which is when the `onIdle`
      waiter is woken, a new URL whose page loads has its summary as the
      result. */
  lemma CrawlOneWebPage(env: Env, visited: set<string>, url: string, events: seq<Event>)
    requires NoStart(events)
    ensures var s := Execute(env, Run(env, FreshState(visited), [url], CrawlOneOptions.maxDepth), events).state;
      var result := Filled(None, s.handled);
      && (result.Some? ==> Canonical(env, url).Some? && Canonical(env, url).value !in visited
                             && env.load(Canonical(env, url).value).Some?
                             && result.value == Summarize(Canonical(env, url).value,
                                                          env.load(Canonical(env, url).value).value))
      && (Drained(s) && !Skipped(Canonical(env, url), visited) && env.load(Canonical(env, url).value).Some? ==>
            result == Some(Summarize(Canonical(env, url).value, env.load(Canonical(env, url).value).value)))
  {
    var s0 := FreshState(visited);
    var s1 := Run(env, s0, [url], CrawlOneOptions.maxDepth);
    var s := Execute(env, s1, events).state;
    SingleSeedRun(env, visited, url, events);
    FreshStateIsValid(env, visited);
    ExecuteUnvisited(env, s0, [Start([url], CrawlOneOptions.maxDepth)] + events, visited, 0);
    assert Execute(env, s0, [Start([url], CrawlOneOptions.maxDepth)] + events).state == s by {
      assert ([Start([url], CrawlOneOptions.maxDepth)] + events)[1..] == events;
    }
    LastCallWins(None, s.handled);
    SingleSeedHandled(env, visited, url, events);
  }

  /** `depthCrawlWebPageUrls(baseUrl, depth)` on an instance whose visited
      set is `visited`: the URLs the handler collected, at any point of the
      run and so when the `onIdle` waiter is woken. No URL is listed twice,
      each is canonical, none was visited before, and none comes from a
      level at or beyond a non-zero `depth`. */
  lemma DepthCrawlWebPageUrls(env: Env, visited: set<string>, baseUrl: string, depth: int, events: seq<Event>)
    requires NoStart(events)
    ensures var s := Execute(env, Run(env, FreshState(visited), [baseUrl], DepthCrawlOptions(depth).maxDepth), events).state;
      var urls := Collected([], s.handled);
      && NoDup(urls)
      && |urls| == |s.handled|
      && (forall k :: 0 <= k < |urls| ==>
            && urls[k] !in visited
            && Canonical(env, s.handled[k].raw) == Some(urls[k])
            && !Cutoff(depth, s.handled[k].depth))
  {
    var m := DepthCrawlOptions(depth).maxDepth;
    var s0 := FreshState(visited);
    var s := Execute(env, Run(env, s0, [baseUrl], m), events).state;
    var all := [Start([baseUrl], m)] + events;
    assert all[1..] == events;
    AtMostOncePerUrl(env, visited, all);
    DepthCutoff(env, visited, [baseUrl], m, events);
    CollectedIsCallOrder([], s.handled);
  }

  /** Both endpoints answer only once their waiter is woken, and a woken
      waiter always finds the crawler drained: nothing queued, nothing
      running, no task in flight. */
  lemma AnswersOnlyWhenDrained(env: Env, visited: set<string>, events: seq<Event>, e: Event)
    ensures var s := Execute(env, FreshState(visited), events).state;
      |Step(env, s, e).woken| > 0 ==> Drained(Step(env, s, e).state)
  {
    FreshStateIsValid(env, visited);
  }
}

=== FILE: sequences.dfy ===
/** Duplicate-freedom and the order-preserving de-duplication performed by
    `[...new Set(xs)]`. */
module Sequences {

  predicate NoDup<T(==)>(xs: seq<T>) {
    forall i, j :: 0 <= i < j < |xs| ==> xs[i] != xs[j]
  }

  /** Index of the first occurrence of `x` in `xs`. */
  function FirstIndex<T(==)>(xs: seq<T>, x: T): (k: nat)
    requires x in xs
    ensures k < |xs| && xs[k] == x
    ensures forall i :: 0 <= i < k ==> xs[i] != x
  {
    if xs[0] == x then 0 else 1 + FirstIndex(xs[1..], x)
  }

  /** `[...new Set(xs)]`: a JavaScript `Set` keeps insertion order and ignores
      re-insertions, so each element survives at its first occurrence. */
  function Dedup<T(==)>(xs: seq<T>): (r: seq<T>)
    ensures NoDup(r)
    ensures forall i :: 0 <= i < |r| ==> r[i] in xs
    ensures forall i :: 0 <= i < |xs| ==> xs[i] in r
    ensures forall i, j :: 0 <= i < j < |r| ==> FirstIndex(xs, r[i]) < FirstIndex(xs, r[j])
    ensures |r| <= |xs|
    decreases |xs|
  {
    if |xs| == 0 then []
    else
      var init := xs[..|xs| - 1];
      var last := xs[|xs| - 1];
      var r := Dedup(init);
      assert xs == init + [last];
      if last in r then DedupSeen(init, last, r); r
      else DedupNew(init, last, r); r + [last]
  }

  /** Helper for `Dedup`: appending an element already kept changes
      nothing in the result. */
  lemma DedupSeen<T>(init: seq<T>, last: T, r: seq<T>)
    requires last in r
    requires forall i :: 0 <= i < |r| ==> r[i] in init
    requires forall i :: 0 <= i < |init| ==> init[i] in r
    requires forall i, j :: 0 <= i < j < |r| ==> FirstIndex(init, r[i]) < FirstIndex(init, r[j])
    ensures forall i :: 0 <= i < |r| ==> r[i] in init + [last]
    ensures forall i :: 0 <= i < |init| + 1 ==> (init + [last])[i] in r
    ensures forall i, j :: 0 <= i < j < |r| ==> FirstIndex(init + [last], r[i]) < FirstIndex(init + [last], r[j])
  {
    ElementsOf(init, r);
    OrderKept(init, last, r);
  }

  /** Helper for `Dedup`: a new element is kept, at the end. */
  lemma DedupNew<T>(init: seq<T>, last: T, r: seq<T>)
    requires last !in r && NoDup(r)
    requires forall i :: 0 <= i < |r| ==> r[i] in init
    requires forall i :: 0 <= i < |init| ==> init[i] in r
    requires forall i, j :: 0 <= i < j < |r| ==> FirstIndex(init, r[i]) < FirstIndex(init, r[j])
    ensures NoDup(r + [last])
    ensures forall i :: 0 <= i < |r| + 1 ==> (r + [last])[i] in init + [last]
    ensures forall i :: 0 <= i < |init| + 1 ==> (init + [last])[i] in r + [last]
    ensures forall i, j :: 0 <= i < j < |r| + 1 ==>
              FirstIndex(init + [last], (r + [last])[i]) < FirstIndex(init + [last], (r + [last])[j])
  {
    ElementsOf(init, r);
    assert forall k :: 0 <= k < |init| ==> init[k] != last;
    OrderExtended(init, last, r);
  }

  /** Helper: the index form of "every element of `r` is in `init`" gives
      the membership form. */
  lemma ElementsOf<T>(init: seq<T>, r: seq<T>)
    requires forall i :: 0 <= i < |r| ==> r[i] in init
    ensures forall x :: x in r ==> x in init
  {
    forall x | x in r
      ensures x in init
    {
      var i :| 0 <= i < |r| && r[i] == x;
    }
  }

  /** Helper for `Dedup`: appending to the input keeps the order of
      first occurrences of earlier elements. */
  lemma OrderKept<T>(init: seq<T>, last: T, r: seq<T>)
    requires forall x :: x in r ==> x in init
    requires forall i, j :: 0 <= i < j < |r| ==> FirstIndex(init, r[i]) < FirstIndex(init, r[j])
    ensures forall i, j :: 0 <= i < j < |r| ==> FirstIndex(init + [last], r[i]) < FirstIndex(init + [last], r[j])
  {
    FirstIndexOfPrefix(init, last, r);
  }

  /** Helper for `Dedup`: a new element appended to the input comes
      after every earlier first occurrence. */
  lemma OrderExtended<T>(init: seq<T>, last: T, r: seq<T>)
    requires last !in init
    requires forall x :: x in r ==> x in init
    requires forall i, j :: 0 <= i < j < |r| ==> FirstIndex(init, r[i]) < FirstIndex(init, r[j])
    ensures forall i, j :: 0 <= i < j < |r| + 1 ==>
              FirstIndex(init + [last], (r + [last])[i]) < FirstIndex(init + [last], (r + [last])[j])
  {
    FirstIndexOfPrefix(init, last, r);
    var xs := init + [last];
    var r' := r + [last];
    forall i, j | 0 <= i < j < |r'|
      ensures FirstIndex(xs, r'[i]) < FirstIndex(xs, r'[j])
    {
      assert r'[i] == r[i];
      if j < |r| {
        assert r'[j] == r[j];
      }
    }
  }

  /** Helper for `Dedup`: first occurrences inside a prefix do not move when
      one element is appended. */
  lemma FirstIndexOfPrefix<T>(init: seq<T>, last: T, r: seq<T>)
    requires forall x :: x in r ==> x in init
    ensures forall x :: x in init ==> FirstIndex(init + [last], x) == FirstIndex(init, x)
    ensures last !in init ==> FirstIndex(init + [last], last) == |init|
  {
    forall x | x in init
      ensures FirstIndex(init + [last], x) == FirstIndex(init, x)
    {
      FirstIndexAppend(init, [last], x);
    }
    if last !in init {
      var k := FirstIndex(init + [last], last);
      assert k == |init|;
    }
  }

  lemma {:induction false} FirstIndexAppend<T>(a: seq<T>, b: seq<T>, x: T)
    requires x in a
    ensures FirstIndex(a + b, x) == FirstIndex(a, x)
  {
    if a[0] != x {
      assert (a + b)[1..] == a[1..] + b;
      FirstIndexAppend(a[1..], b, x);
    }
  }

  /** A duplicate-free sequence all of whose elements are `c` has at most
      one element. */
  lemma AllSameNoDup<T>(xs: seq<T>, c: T)
    requires forall i :: 0 <= i < |xs| ==> xs[i] == c
    ensures NoDup(xs) ==> |xs| <= 1
  {
    if |xs| > 1 {
      assert xs[0] == c && xs[1] == c;
    }
  }

  /** Draining `m` elements from the head of `a + b`, feeding `c` at the
      tail, then draining `n` more is draining `m + n` from `a + (b + c)`:
      how a FIFO composes across two transitions. */
  lemma DropChain<T>(a: seq<T>, b: seq<T>, c: seq<T>, m: int, mid: seq<T>, n: int, after: seq<T>)
    requires 0 <= m <= |a + b| && mid == (a + b)[m..]
    requires 0 <= n <= |mid + c| && after == (mid + c)[n..]
    ensures 0 <= m + n <= |a + (b + c)| && after == (a + (b + c))[m + n..]
  {
    assert forall k :: 0 <= k < |after| ==> after[k] == (a + (b + c))[m + n + k];
  }
}

=== FILE: task_queue.dfy ===
/** `TaskQueueService` (src/crawler/crawler.task-queue.service.ts) as a
    transition system: a FIFO of opaque tasks, a running counter bounded by
    a fixed limit of 10, and the list of idle waiters. The asynchronous
    `run()` splits into its synchronous prefix (`TryStart`, taken by
    `Enqueue` and by `Finish`) and its continuation after the task's
    promise settles (`Finish`). */
module TaskQueue {
  import opened Wrappers

  /** `concurrencyTaskLimit`. */
  const ConcurrencyLimit: nat := 10

  /** `processingQueue`, `runningTask` and `idleResolvers`; a waiter is
      identified by a number. */
  datatype Queue<T> = Queue(pending: seq<T>, running: nat, waiters: seq<nat>)

  /** The queue as the service constructs it. */
  function Fresh<T>(): Queue<T> {
    Queue([], 0, [])
  }

  /** The idle test in `run()` and `onIdle()`. */
  predicate Idle<T>(q: Queue<T>) {
    q.running == 0 && |q.pending| == 0
  }

  /** What every reachable queue satisfies: the concurrency bound, work
      conservation (nothing waits while a slot is free), and no waiter
      left registered on an idle queue. */
  predicate Valid<T>(q: Queue<T>) {
    && q.running <= ConcurrencyLimit
    && (|q.pending| > 0 ==> q.running == ConcurrencyLimit)
    && (|q.waiters| > 0 ==> !Idle(q))
  }

  /** The tasks a transition started, in start order (at most one). */
  function StartedList<T>(started: Option<T>): seq<T> {
    if started.Some? then [started.value] else []
  }

  datatype Started<T> = Started(queue: Queue<T>, started: Option<T>)

  /** The synchronous prefix of `run()`, up to `await task()`: with a free slot and
      something pending, count one more running task and take the head of
      the FIFO; otherwise do nothing. */
  function TryStart<T>(q: Queue<T>): (r: Started<T>)
    ensures r.started.Some? <==> q.running < ConcurrencyLimit && |q.pending| > 0
    ensures q.pending == StartedList(r.started) + r.queue.pending
    ensures r.queue.running == q.running + |StartedList(r.started)|
    ensures r.queue.waiters == q.waiters
    ensures q.running <= ConcurrencyLimit ==> r.queue.running <= ConcurrencyLimit
  {
    if q.running >= ConcurrencyLimit || |q.pending| == 0 then Started(q, None)
    else Started(q.(pending := q.pending[1..], running := q.running + 1), Some(q.pending[0]))
  }

  /** `enqueue(task)`: append at the tail, then try to start
      one task. It never releases a waiter. */
  function Enqueue<T>(q: Queue<T>, task: T): (r: Started<T>)
    ensures q.pending + [task] == StartedList(r.started) + r.queue.pending
    ensures r.queue.running == q.running + |StartedList(r.started)|
    ensures r.queue.waiters == q.waiters
    ensures !Idle(r.queue)
    ensures Valid(q) ==> Valid(r.queue)
    ensures Valid(q) && q.running < ConcurrencyLimit ==> r.started == Some(if |q.pending| > 0 then q.pending[0] else task)
  {
    TryStart(q.(pending := q.pending + [task]))
  }

  datatype Finished<T> = Finished(queue: Queue<T>, started: Option<T>, released: seq<nat>)

  /** The continuation of `run()` once the task's promise has settled:
      decrement, try to start one more task, and if the queue is then
      idle, release every waiter and clear the list. */
  function Finish<T>(q: Queue<T>): (r: Finished<T>)
    requires q.running > 0
    ensures q.pending == StartedList(r.started) + r.queue.pending
    ensures r.queue.running == q.running - 1 + |StartedList(r.started)|
    ensures Idle(r.queue) ==> r.released == q.waiters && r.queue.waiters == []
    ensures !Idle(r.queue) ==> r.released == [] && r.queue.waiters == q.waiters
    ensures Valid(q) ==> Valid(r.queue)
    ensures Valid(q) && |q.pending| > 0 ==> r.started == Some(q.pending[0])
  {
    var s := TryStart(q.(running := q.running - 1));
    if Idle(s.queue) then Finished(s.queue.(waiters := []), s.started, s.queue.waiters)
    else Finished(s.queue, s.started, [])
  }

  datatype Awaited<T> = Awaited(queue: Queue<T>, resolved: bool)

  /** `onIdle()`: resolve at once when idle, otherwise
      register the waiter and change nothing else. */
  function OnIdle<T>(q: Queue<T>, waiter: nat): (r: Awaited<T>)
    ensures r.resolved <==> Idle(q)
    ensures r.resolved ==> r.queue == q
    ensures !r.resolved ==> r.queue == q.(waiters := q.waiters + [waiter])
    ensures Valid(q) ==> Valid(r.queue)
  {
    if Idle(q) then Awaited(q, true)
    else Awaited(q.(waiters := q.waiters + [waiter]), false)
  }

  /** One call into the queue. `Settle` is the settling of some running
      task; with nothing running it cannot happen and is ignored. */
  datatype Event<T> = Push(task: T) | Settle | Wait(waiter: nat)

  /** What a sequence of events did: the tasks started and the waiters
      released or resolved at once, each in order. */
  datatype Trace<T> = Trace(queue: Queue<T>, started: seq<T>, released: seq<nat>, resolved: seq<nat>)

  /** The task an event pushes, if any. */
  function PushedBy<T>(e: Event<T>): seq<T> {
    if e.Push? then [e.task] else []
  }

  /** The waiter an event registers, if any. */
  function WaitingBy<T>(e: Event<T>): seq<nat> {
    if e.Wait? then [e.waiter] else []
  }

  /** One event. */
  function Step<T>(q: Queue<T>, e: Event<T>): Trace<T> {
    match e
    case Push(t) =>
      var r := Enqueue(q, t);
      Trace(r.queue, StartedList(r.started), [], [])
    case Settle =>
      if q.running == 0 then Trace(q, [], [], [])
      else
        var r := Finish(q);
        Trace(r.queue, StartedList(r.started), r.released, [])
    case Wait(w) =>
      var r := OnIdle(q, w);
      Trace(r.queue, [], [], if r.resolved then [w] else [])
  }

  /** One event keeps FIFO order: what was pending plus what it pushed is
      what it started plus what is still pending. */
  lemma StepIsFifo<T>(q: Queue<T>, e: Event<T>)
    ensures q.pending + PushedBy(e) == Step(q, e).started + Step(q, e).queue.pending
  {
    if !e.Push? {
      assert q.pending + [] == q.pending;
    }
  }

  /** One event neither loses nor duplicates a waiter. */
  lemma StepAccountsForWaiters<T>(q: Queue<T>, e: Event<T>)
    ensures var r := Step(q, e);
      multiset(q.waiters) + multiset(WaitingBy(e))
        == multiset(r.resolved) + multiset(r.released) + multiset(r.queue.waiters)
  {
  }

  /** One event keeps the queue valid. */
  lemma StepKeepsValid<T>(q: Queue<T>, e: Event<T>)
    ensures Valid(q) ==> Valid(Step(q, e).queue)
  {
  }

  /** A sequence of events, applied in order. Across all of them the
      queue stays valid (never more than 10 tasks running, never a pending
      task beside a free slot, never a waiter on an idle queue), tasks start
      in FIFO order, and no waiter is lost or released twice. */
  function Execute<T>(q: Queue<T>, events: seq<Event<T>>): (t: Trace<T>)
    ensures Valid(q) ==> Valid(t.queue)
    ensures q.pending + Pushed(events) == t.started + t.queue.pending
    ensures multiset(q.waiters) + multiset(Waiting(events))
              == multiset(t.resolved) + multiset(t.released) + multiset(t.queue.waiters)
    decreases |events|
  {
    if |events| == 0 then
      assert q.pending + [] == q.pending;
      Trace(q, [], [], [])
    else
      var t1 := Step(q, events[0]);
      StepIsFifo(q, events[0]);
      StepAccountsForWaiters(q, events[0]);
      StepKeepsValid(q, events[0]);
      var t2 := Execute(t1.queue, events[1..]);
      ChainFifo(q.pending, PushedBy(events[0]), Pushed(events[1..]),
                t1.started, t1.queue.pending, t2.started, t2.queue.pending);
      assert multiset(Waiting(events)) == multiset(WaitingBy(events[0])) + multiset(Waiting(events[1..]));
      assert multiset(t1.resolved + t2.resolved) == multiset(t1.resolved) + multiset(t2.resolved);
      assert multiset(t1.released + t2.released) == multiset(t1.released) + multiset(t2.released);
      ChainWaiters(multiset(q.waiters), multiset(WaitingBy(events[0])), multiset(Waiting(events[1..])),
                   multiset(t1.resolved), multiset(t1.released), multiset(t1.queue.waiters),
                   multiset(t2.resolved), multiset(t2.released), multiset(t2.queue.waiters));
      Trace(t2.queue, t1.started + t2.started, t1.released + t2.released, t1.resolved + t2.resolved)
  }

  /** Helper for `Execute`: FIFO order composes across two steps. */
  lemma ChainFifo<T>(pending: seq<T>, pushed1: seq<T>, pushed2: seq<T>,
                     started1: seq<T>, mid: seq<T>, started2: seq<T>, rest: seq<T>)
    requires pending + pushed1 == started1 + mid
    requires mid + pushed2 == started2 + rest
    ensures pending + (pushed1 + pushed2) == (started1 + started2) + rest
  {
    calc {
      pending + (pushed1 + pushed2);
      (pending + pushed1) + pushed2;
      (started1 + mid) + pushed2;
      started1 + (mid + pushed2);
      started1 + (started2 + rest);
    }
  }

  /** Helper for `Execute`: waiter accounting composes across two steps. */
  lemma ChainWaiters(before: multiset<nat>, waiting1: multiset<nat>, waiting2: multiset<nat>,
                     resolved1: multiset<nat>, released1: multiset<nat>, mid: multiset<nat>,
                     resolved2: multiset<nat>, released2: multiset<nat>, after: multiset<nat>)
    requires before + waiting1 == resolved1 + released1 + mid
    requires mid + waiting2 == resolved2 + released2 + after
    ensures before + (waiting1 + waiting2) == (resolved1 + resolved2) + (released1 + released2) + after
  {
    forall x {
      calc {
        (before + (waiting1 + waiting2))[x];
        (before + waiting1)[x] + waiting2[x];
        (resolved1 + released1 + mid)[x] + waiting2[x];
        resolved1[x] + released1[x] + (mid + waiting2)[x];
        resolved1[x] + released1[x] + (resolved2 + released2 + after)[x];
        ((resolved1 + resolved2) + (released1 + released2) + after)[x];
      }
    }
  }

  /** Whatever a transition started or left pending was there before it:
      the queue invents no task. */
  lemma NothingInvented<T>(before: seq<T>, started: Option<T>, after: seq<T>)
    requires before == StartedList(started) + after
    ensures started.Some? ==> started.value in before
    ensures forall x :: x in after ==> x in before
  {
    if started.Some? {
      assert before[0] == started.value;
    }
    forall x | x in after
      ensures x in before
    {
      var i :| 0 <= i < |after| && after[i] == x;
      assert before[|before| - |after| + i] == x;
    }
  }

  /** The tasks pushed by a sequence of events, in order. */
  function Pushed<T>(events: seq<Event<T>>): seq<T>
    decreases |events|
  {
    if |events| == 0 then [] else PushedBy(events[0]) + Pushed(events[1..])
  }

  /** The waiters that called `onIdle`, in order. */
  function Waiting<T>(events: seq<Event<T>>): seq<nat>
    decreases |events|
  {
    if |events| == 0 then [] else WaitingBy(events[0]) + Waiting(events[1..])
  }

  /** Waiters are only ever released onto an idle queue. */
  lemma ReleaseOnlyWhenIdle<T>(q: Queue<T>)
    requires q.running > 0
    ensures |Finish(q).released| > 0 ==> Idle(Finish(q).queue) && |q.waiters| > 0
  {
  }
}

=== FILE: text.dfy ===
/** Character-level string helpers shared by the URL normaliser and the
    page-summary handler: the ECMAScript whitespace class, prefix and
    substring tests, `trim()` and the `/\s+/g -> ' '` collapse. */
module Text {

  /** The ECMAScript WhiteSpace and LineTerminator code points: exactly the
      characters matched by the regular-expression class `\s` and removed by
      `String.prototype.trim`. */
  predicate IsSpace(c: char) {
    || c == '\t' || c == '\n' || c == '\U{000B}' || c == '\U{000C}' || c == '\r'
    || c == ' ' || c == '\U{00A0}' || c == '\U{1680}'
    || ('\U{2000}' <= c <= '\U{200A}')
    || c == '\U{2028}' || c == '\U{2029}' || c == '\U{202F}' || c == '\U{205F}'
    || c == '\U{3000}' || c == '\U{FEFF}'
  }

  /** Every character is whitespace (the empty string included). */
  predicate Blank(s: string) {
    forall i :: 0 <= i < |s| ==> IsSpace(s[i])
  }

  predicate StartsWith(s: string, prefix: string) {
    |prefix| <= |s| && s[..|prefix|] == prefix
  }

  /** `s.includes(needle)`. */
  predicate Contains(s: string, needle: string) {
    exists i :: 0 <= i <= |s| && StartsWith(s[i..], needle)
  }

  /** The non-whitespace characters of `s`, in order: what trimming and
      whitespace collapsing must leave intact. */
  function Visible(s: string): (r: string)
    ensures |r| <= |s|
    ensures forall i :: 0 <= i < |r| ==> !IsSpace(r[i])
  {
    if |s| == 0 then []
    else if IsSpace(s[0]) then Visible(s[1..])
    else [s[0]] + Visible(s[1..])
  }

  lemma {:induction false} VisibleAppend(a: string, b: string)
    ensures Visible(a + b) == Visible(a) + Visible(b)
  {
    if |a| == 0 {
      assert a + b == b;
    } else {
      assert (a + b)[1..] == a[1..] + b;
      VisibleAppend(a[1..], b);
    }
  }

  lemma {:induction false} VisibleOfBlank(s: string)
    requires Blank(s)
    ensures Visible(s) == []
  {
    if |s| > 0 {
      VisibleOfBlank(s[1..]);
    }
  }

  /** A string is blank exactly when it has no visible character. */
  lemma {:induction false} BlankIffNoVisible(s: string)
    ensures Blank(s) <==> Visible(s) == []
  {
    if |s| > 0 {
      BlankIffNoVisible(s[1..]);
      if Blank(s[1..]) && IsSpace(s[0]) {
        assert forall i :: 1 <= i < |s| ==> s[i] == s[1..][i - 1];
      }
    }
  }

  /** The number of leading whitespace characters. */
  function LeadingSpaces(s: string): (k: nat)
    ensures k <= |s|
    ensures forall i :: 0 <= i < k ==> IsSpace(s[i])
    ensures k < |s| ==> !IsSpace(s[k])
    decreases |s|
  {
    if |s| > 0 && IsSpace(s[0]) then 1 + LeadingSpaces(s[1..]) else 0
  }

  /** Where the trailing whitespace starts. */
  function TrailingStart(s: string): (k: nat)
    ensures k <= |s|
    ensures forall i :: k <= i < |s| ==> IsSpace(s[i])
    ensures k > 0 ==> !IsSpace(s[k - 1])
    decreases |s|
  {
    if |s| > 0 && IsSpace(s[|s| - 1]) then TrailingStart(s[..|s| - 1]) else |s|
  }

  /** `String.prototype.trim`: `s` is a blank prefix, the result, and a
      blank suffix, and the result neither starts nor ends with
      whitespace. */
  function Trim(s: string): (r: string)
    ensures LeadingSpaces(s) + |r| <= |s|
    ensures r == s[LeadingSpaces(s)..LeadingSpaces(s) + |r|]
    ensures forall i :: LeadingSpaces(s) + |r| <= i < |s| ==> IsSpace(s[i])
    ensures |r| > 0 ==> !IsSpace(r[0]) && !IsSpace(r[|r| - 1])
    ensures |r| == 0 <==> Blank(s)
  {
    var a := LeadingSpaces(s);
    var b := TrailingStart(s);
    if a == |s| then []
    else
      assert a < b;
      s[a..b]
  }

  /** Trimming keeps every visible character, in order. */
  lemma TrimKeepsVisible(s: string)
    ensures Visible(Trim(s)) == Visible(s)
  {
    var a := LeadingSpaces(s);
    var r := Trim(s);
    var b := a + |r|;
    BlankAround(s, a, b);
    assert s == s[..a] + r + s[b..];
    VisibleAppend(s[..a] + r, s[b..]);
    VisibleAppend(s[..a], r);
  }

  /** Helper for `TrimKeepsVisible`: what trimming cuts off has no visible
      character. */
  lemma BlankAround(s: string, a: nat, b: nat)
    requires a <= b <= |s|
    requires forall i :: 0 <= i < a ==> IsSpace(s[i])
    requires forall i :: b <= i < |s| ==> IsSpace(s[i])
    ensures Visible(s[..a]) == [] && Visible(s[b..]) == []
  {
    VisibleOfBlank(s[..a]);
    VisibleOfBlank(s[b..]);
  }

  /** Trailing whitespace separates no word. */
  lemma {:induction false} WordsAppendBlank(x: string, y: string)
    requires Blank(y)
    ensures Words(x + y) == Words(x)
    decreases |x|
  {
    if |x| == 0 {
      assert x + y == y;
      SpacesAddNoWords(y, |y|);
      assert y[|y|..] == [];
    } else {
      WordsAppendBlank(x[1..], y);
      assert (x + y)[1..] == x[1..] + y;
      assert |x| > 1 ==> (x + y)[1] == x[1];
      assert |x| == 1 ==> |y| > 0 ==> (x + y)[1] == y[0];
    }
  }

  /** Trimming keeps the words. */
  lemma TrimKeepsWords(s: string)
    ensures Words(Trim(s)) == Words(s)
  {
    var a := LeadingSpaces(s);
    var r := Trim(s);
    var b := a + |r|;
    SpacesAddNoWords(s, a);
    assert s[a..] == r + s[b..];
    WordsAppendBlank(r, s[b..]);
  }

  /** Trimming twice is trimming once. */
  lemma TrimIdempotent(s: string)
    ensures Trim(Trim(s)) == Trim(s)
  {
    var r := Trim(s);
    if |r| > 0 {
      assert LeadingSpaces(r) == 0;
      assert TrailingStart(r) == |r|;
    }
  }

  /** Whitespace occurs only as single plain spaces. */
  ghost predicate SingleSpaced(s: string) {
    && (forall i :: 0 <= i < |s| && IsSpace(s[i]) ==> s[i] == ' ')
    && (forall i, j :: 0 <= i < j < |s| && j == i + 1 ==> !(IsSpace(s[i]) && IsSpace(s[j])))
  }

  /** No whitespace at all. */
  predicate NoSpace(w: string) {
    forall j :: 0 <= j < |w| ==> !IsSpace(w[j])
  }

  /** The maximal runs of non-whitespace characters of `s`, in order: the
      words that whitespace separates. */
  function Words(s: string): (w: seq<string>)
    ensures forall i :: 0 <= i < |w| ==> |w[i]| > 0 && NoSpace(w[i])
    ensures |s| > 0 && !IsSpace(s[0]) ==> |w| > 0 && w[0][0] == s[0]
    decreases |s|
  {
    if |s| == 0 then []
    else
      var w := Words(s[1..]);
      if IsSpace(s[0]) then w
      else if |s| > 1 && !IsSpace(s[1]) then [[s[0]] + w[0]] + w[1..]
      else [[s[0]]] + w
  }

  /** Leading whitespace separates no word. */
  lemma {:induction false} SpacesAddNoWords(s: string, k: nat)
    requires k <= |s|
    requires forall i :: 0 <= i < k ==> IsSpace(s[i])
    ensures Words(s) == Words(s[k..])
    decreases k
  {
    if k > 0 {
      SpacesAddNoWords(s[1..], k - 1);
      assert s[1..][k - 1..] == s[k..];
    }
  }

  /** `s.replace(/\s+/g, ' ')`: every maximal run of whitespace becomes one
      plain space. The result is single-spaced, keeps the visible
      characters, and starts with whitespace exactly when the input does;
      `CollapseKeepsWords` adds that the words are the same, and
      `CollapseKeepsEnd` that so is whether the text ends with
      whitespace. */
  function CollapseWhitespace(s: string): (r: string)
    ensures SingleSpaced(r)
    ensures Visible(r) == Visible(s)
    ensures |r| <= |s|
    ensures |s| > 0 ==> |r| > 0 && (IsSpace(r[0]) <==> IsSpace(s[0]))
    decreases |s|
  {
    if |s| == 0 then []
    else if IsSpace(s[0]) then
      var k := LeadingSpaces(s);
      var rest := s[k..];
      assert s == s[..k] + rest;
      VisibleAppend(s[..k], rest);
      VisibleOfBlank(s[..k]);
      var tail := CollapseWhitespace(rest);
      VisibleAppend([' '], tail);
      ConsSingleSpaced(' ', tail);
      [' '] + tail
    else
      var tail := CollapseWhitespace(s[1..]);
      assert s == [s[0]] + s[1..];
      VisibleAppend([s[0]], s[1..]);
      VisibleAppend([s[0]], tail);
      ConsSingleSpaced(s[0], tail);
      [s[0]] + tail
  }

  /** Collapsing keeps the words: only the whitespace between, before and
      after them changes. */
  lemma {:induction false} CollapseKeepsWords(s: string)
    ensures Words(CollapseWhitespace(s)) == Words(s)
    decreases |s|
  {
    if |s| > 0 {
      if IsSpace(s[0]) {
        var k := LeadingSpaces(s);
        CollapseKeepsWords(s[k..]);
        CollapsedRun(s, k);
      } else {
        CollapseKeepsWords(s[1..]);
        CollapsedWordStart(s);
      }
    }
  }

  /** Helper for `CollapseKeepsWords`: a leading run of whitespace. */
  lemma CollapsedRun(s: string, k: nat)
    requires |s| > 0 && IsSpace(s[0]) && k == LeadingSpaces(s)
    requires Words(CollapseWhitespace(s[k..])) == Words(s[k..])
    ensures Words(CollapseWhitespace(s)) == Words(s)
  {
    SpacesAddNoWords(s, k);
    var r := CollapseWhitespace(s);
    CollapseStep(s);
    assert r[1..] == CollapseWhitespace(s[k..]);
  }

  /** Helper for `CollapseKeepsWords`: a leading visible character. */
  lemma CollapsedWordStart(s: string)
    requires |s| > 0 && !IsSpace(s[0])
    requires Words(CollapseWhitespace(s[1..])) == Words(s[1..])
    ensures Words(CollapseWhitespace(s)) == Words(s)
  {
    var r := CollapseWhitespace(s);
    CollapseStep(s);
    assert r[1..] == CollapseWhitespace(s[1..]);
    assert |s| > 1 ==> s[1..][0] == s[1];
  }

  /** One step of `CollapseWhitespace`, for the lemmas about it. */
  lemma CollapseStep(s: string)
    requires |s| > 0
    ensures IsSpace(s[0]) ==> CollapseWhitespace(s) == [' '] + CollapseWhitespace(s[LeadingSpaces(s)..])
    ensures !IsSpace(s[0]) ==> CollapseWhitespace(s) == [s[0]] + CollapseWhitespace(s[1..])
  {
  }

  /** Collapsing ends with whitespace exactly when the input does. */
  lemma {:induction false} CollapseKeepsEnd(s: string)
    requires |s| > 0
    ensures var r := CollapseWhitespace(s);
      IsSpace(r[|r| - 1]) <==> IsSpace(s[|s| - 1])
    decreases |s|
  {
    CollapseStep(s);
    if IsSpace(s[0]) {
      var k := LeadingSpaces(s);
      if k < |s| {
        CollapseKeepsEnd(s[k..]);
        assert s[k..][|s| - k - 1] == s[|s| - 1];
      }
    } else {
      if |s| > 1 {
        CollapseKeepsEnd(s[1..]);
        assert s[1..][|s| - 2] == s[|s| - 1];
      }
    }
  }

  /** Helper for `CollapseWhitespace`: a character in front of single-spaced
      text keeps it single-spaced unless it adds a second space. */
  lemma ConsSingleSpaced(c: char, tail: string)
    requires SingleSpaced(tail)
    requires IsSpace(c) ==> c == ' ' && (|tail| > 0 ==> !IsSpace(tail[0]))
    ensures SingleSpaced([c] + tail)
  {
    var r := [c] + tail;
    assert forall i :: 0 < i < |r| ==> r[i] == tail[i - 1];
  }

  /** `s.slice(0, n)` for a non-negative `n`. */
  function Take(s: string, n: nat): (r: string)
    ensures |r| == if |s| <= n then |s| else n
    ensures r == s[..|r|]
    ensures |s| <= n ==> r == s
  {
    if |s| <= n then s else s[..n]
  }

  /** ASCII-only lower-casing: the case-insensitive comparison of a regular
      expression without the `u` flag folds only ASCII letters onto ASCII
      letters. */
  function LowerAscii(c: char): (r: char)
    ensures 'A' <= c <= 'Z' ==> 'a' <= r <= 'z'
    ensures !('A' <= c <= 'Z') ==> r == c
  {
    if 'A' <= c <= 'Z' then (c as int + 32) as char else c
  }

  /** `s` starts with `prefix`, ignoring the case of ASCII letters. */
  predicate StartsWithIgnoringCase(s: string, prefix: string) {
    |prefix| <= |s|
    && forall i :: 0 <= i < |prefix| ==> LowerAscii(s[i]) == LowerAscii(prefix[i])
  }
}

=== FILE: url_normalizer.dfy ===
/** `normalizeUrl(url, baseUrl)` (src/crawler/crawler.util.ts): the code's
    own decisions around a standard URL parser — the blank check, the order
    of the three resolution branches, the naive base join, the `https://`
    default, the `http` prefix test on the protocol and the single `www.`
    strip. The parser itself is a parameter. */
module UrlNormalizer {
  import opened Wrappers
  import opened Text

  /** The parts of a parsed URL that the normaliser reads or writes.
      `rest` stands for every other component (credentials, port, path,
      query, fragment), which the code never touches. */
  datatype UrlRecord = UrlRecord(protocol: string, hostname: string, rest: string)

  /** The basic URL parser of section 4.4 of the WHATWG URL Standard
      (`new URL(s)`, `None` when it throws) and the URL serializer (the
      `href` getter), both left uninterpreted. */
  datatype UrlParser = UrlParser(parse: string -> Option<UrlRecord>, serialize: UrlRecord -> string)

  predicate EndsWith(s: string, suffix: string) {
    |suffix| <= |s| && s[|s| - |suffix|..] == suffix
  }

  /** `/^https?:\/\//i`: an explicit `http://` or `https://` scheme in any
      ASCII letter case. */
  predicate HasHttpScheme(url: string) {
    StartsWithIgnoringCase(url, "http://") || StartsWithIgnoringCase(url, "https://")
  }

  /** The second branch: a single leading `/` and no `www` anywhere in the
      string, which the code takes to mean "relative to the base". */
  predicate IsRootRelative(url: string) {
    !StartsWith(url, "//") && StartsWith(url, "/") && !Contains(url, "www")
  }

  /** `!baseUrl`: a missing base and the empty base are both falsy. */
  predicate HasBase(base: Option<string>) {
    base.Some? && base.value != ""
  }

  /** The string handed to `new URL`, or `None` when the code returns null
      before parsing (a root-relative input without a usable base). */
  function ParseInput(url: string, base: Option<string>): (r: Option<string>)
    ensures r.Some? ==> EndsWith(r.value, url)
    ensures !IsRootRelative(url) ==> r.Some? && HasHttpScheme(r.value)
    ensures StartsWith(url, "//") ==> r == Some("https:" + url)
    ensures IsRootRelative(url) ==> (r.Some? <==> HasBase(base))
    ensures IsRootRelative(url) && HasBase(base) ==>
              r.value == base.value[..|base.value| - 1] + url
    ensures !IsRootRelative(url) && !StartsWith(url, "//") ==>
              r == Some(if HasHttpScheme(url) then url else "https://" + url)
  {
    if StartsWith(url, "//") then
      var r := "https:" + url;
      assert r[..8] == "https://";
      assert r[|r| - |url|..] == url;
      Some(r)
    else if StartsWith(url, "/") && !Contains(url, "www") then
      if !HasBase(base) then None
      else
        var r := base.value[..|base.value| - 1] + url;
        assert r[|r| - |url|..] == url;
        Some(r)
    else if HasHttpScheme(url) then Some(url)
    else
      var r := "https://" + url;
      assert r[..8] == "https://";
      assert r[|r| - |url|..] == url;
      Some(r)
  }

  /** `hostname.replace(/^www\./, '')` under the `startsWith('www.')`
      guard: at most one leading `www.` goes. */
  function StripWww(hostname: string): (r: string)
    ensures StartsWith(hostname, "www.") ==> hostname == "www." + r
    ensures !StartsWith(hostname, "www.") ==> r == hostname
  {
    if StartsWith(hostname, "www.") then hostname[4..] else hostname
  }

  /** The record `new URL` produced, or `None` when the code returned null
      before parsing or the parser threw. */
  function Parsed(p: UrlParser, url: Option<string>, base: Option<string>): Option<UrlRecord> {
    if url.None? || Blank(url.value) then None
    else
      match ParseInput(url.value, base)
      case None => None
      case Some(input) => p.parse(input)
  }

  /** `normalizeUrl(url, baseUrl)`. */
  function Normalize(p: UrlParser, url: Option<string>, base: Option<string>): (r: Option<string>)
    ensures url.None? || Blank(url.value) ==> r.None?
    ensures Parsed(p, url, base).None? ==> r.None?
    ensures r.Some? <==> Parsed(p, url, base).Some? && StartsWith(Parsed(p, url, base).value.protocol, "http")
    ensures r.Some? ==>
              var rec := Parsed(p, url, base).value;
              r.value == p.serialize(rec.(hostname := StripWww(rec.hostname)))
  {
    match Parsed(p, url, base)
    case None => None
    case Some(rec) =>
      if !StartsWith(rec.protocol, "http") then None
      else Some(p.serialize(rec.(hostname := StripWww(rec.hostname))))
  }

  /** The base URL is consulted only for root-relative input: for every other
      input, the result is the same whatever the base. */
  lemma BaseOnlyForRootRelative(p: UrlParser, url: string, base1: Option<string>, base2: Option<string>)
    requires !IsRootRelative(url)
    ensures Normalize(p, Some(url), base1) == Normalize(p, Some(url), base2)
  {
    if !Blank(url) {
      assert ParseInput(url, base1) == ParseInput(url, base2);
    }
  }

  /** A protocol-relative `//host/path` is parsed as `https://host/path`. */
  lemma ProtocolRelativeIsHttps(p: UrlParser, url: string, base: Option<string>)
    requires StartsWith(url, "//")
    ensures Parsed(p, Some(url), base) == p.parse("https:" + url)
  {
    assert !Blank(url) by {
      assert url[0] == '/';
    }
  }

  /** Root-relative input without a base (missing or empty) is rejected
      whatever the parser would say. */
  lemma RootRelativeNeedsBase(p: UrlParser, url: string, base: Option<string>)
    requires IsRootRelative(url) && !HasBase(base)
    ensures Normalize(p, Some(url), base).None?
  {
    assert url[0] == '/';
  }

  /** With a base, root-relative input is parsed as the base minus its last
      character followed by the input. */
  lemma RootRelativeJoin(p: UrlParser, url: string, base: string)
    requires IsRootRelative(url) && base != ""
    ensures Parsed(p, Some(url), Some(base)) == p.parse(base[..|base| - 1] + url)
  {
    assert url[0] == '/';
  }

  /** A worked example of `RootRelativeJoin`, which states the general
      fact: the join drops the base's last character even when it is not
      `/`, so `/a` against `https://e.com/docs` is parsed as
      `https://e.com/doc/a`. */
  lemma NaiveJoinDropsAnyLastCharacter(p: UrlParser)
    ensures Parsed(p, Some("/a"), Some("https://e.com/docs")) == p.parse("https://e.com/doc/a")
  {
    assert !Contains("/a", "www") by {
      assert !StartsWith("/a", "www");
      assert !StartsWith("a", "www");
      assert !StartsWith("", "www");
      assert !Contains("", "www");
      assert !Contains("a", "www");
    }
    assert !StartsWith("/a", "//") by {
      assert "/a"[..2][1] == 'a';
    }
    RootRelativeJoin(p, "/a", "https://e.com/docs");
    assert "https://e.com/docs"[..17] + "/a" == "https://e.com/doc/a";
  }

  /** Outside the two slash branches, input with an explicit `http://` or
      `https://` scheme is parsed as it is and anything else gets
      `https://` in front. */
  lemma SchemeDefaulting(p: UrlParser, url: string, base: Option<string>)
    requires !Blank(url) && !StartsWith(url, "//") && !IsRootRelative(url)
    ensures HasHttpScheme(url) ==> Parsed(p, Some(url), base) == p.parse(url)
    ensures !HasHttpScheme(url) ==> Parsed(p, Some(url), base) == p.parse("https://" + url)
  {
  }

  /** The protocol check is a prefix test, not an exact match: a parsed
      record whose protocol is `httpx:` is accepted. */
  lemma ProtocolPrefixIsPermissive(p: UrlParser, url: Option<string>, base: Option<string>)
    requires Parsed(p, url, base).Some?
    requires Parsed(p, url, base).value.protocol == "httpx:"
    ensures Normalize(p, url, base).Some?
  {
    assert "httpx:"[..4] == "http";
  }

  /** The `www` test looks at the whole string, so a relative path that
      merely contains `www` skips the base and gets `https://` in front:
      `/wwwroot/a` is parsed as `https:///wwwroot/a`, whatever the base. */
  lemma WwwSubstringSkipsBase(p: UrlParser, url: string, base: Option<string>)
    requires StartsWith(url, "/") && !StartsWith(url, "//") && Contains(url, "www")
    ensures Parsed(p, Some(url), base) == p.parse("https://" + url)
  {
    assert !IsSpace(url[0]);
    assert !StartsWithIgnoringCase(url, "http://") by {
      assert LowerAscii(url[0]) != LowerAscii("http://"[0]);
    }
    assert !StartsWithIgnoringCase(url, "https://") by {
      assert LowerAscii(url[0]) != LowerAscii("https://"[0]);
    }
  }

  /** Worked examples of `StripWww`'s contract, which states the general
      fact: exactly one leading `www.` is removed, so `www.www.x` keeps one,
      and `wwwx.org` has no `www.` prefix to remove. */
  lemma StripWwwOnce()
    ensures StripWww("www.www.x") == "www.x"
    ensures StripWww("wwwx.org") == "wwwx.org"
  {
    assert StartsWith("www.www.x", "www.");
    assert !StartsWith("wwwx.org", "www.") by {
      assert "wwwx.org"[..4][3] == 'x';
    }
  }
}

=== FILE: webpage_controller.dfy ===
/** `WebPageController` (src/webpage/webpage.controller.ts): the three
    page-table endpoints over `WebPageService`. */
module WebPageController {
  import opened Wrappers
  import opened WebPageService

  /** `WebPageMessages.PAGE_UPDATED` and `PAGE_SAVED`. */
  const PageUpdated: string := "Page updated"
  const PageSaved: string := "Page saved"

  /** The body of `POST api/v1/webpages`, `CrawledWebPageDto`: `wholePage`
      may be left out. */
  datatype CrawledDto = CrawledDto(
    uri: string,
    title: string,
    description: string,
    category: string,
    text: string,
    wholePage: Option<string>)

  /** The answer of `saveWebPage` and the table it leaves behind. */
  datatype SaveResponse = SaveResponse(message: string, page: WebPage, pages: Table)

  /** `saveWebPage(crawled)`: look the URL up first, then upsert with an
      absent `wholePage` replaced by `''`, and report whether the page was
      already there. */
  function SaveWebPage(pages: Table, dto: CrawledDto, freshId: nat): (r: SaveResponse)
    ensures r.message == PageUpdated <==> dto.uri in pages
    ensures r.message == PageSaved <==> dto.uri !in pages
    ensures dto.uri in r.pages && r.pages[dto.uri] == r.page
    ensures forall u :: u != dto.uri ==> Get(r.pages, u) == Get(pages, u)
    ensures && r.page.title == dto.title && r.page.description == dto.description
            && r.page.category == dto.category && r.page.text == dto.text
    ensures dto.wholePage.None? && dto.uri in pages ==> r.page.wholePage == pages[dto.uri].wholePage
    ensures dto.wholePage.None? && dto.uri !in pages ==> r.page.wholePage == Some("")
    ensures Keyed(pages) ==> Keyed(r.pages) && r.page.url == dto.uri
  {
    var existed := CheckExists(pages, dto.uri);
    var saved := SaveOrUpdate(pages, Crawled(dto.uri, dto.title, dto.description, dto.category, dto.text,
                                             Some(dto.wholePage.GetOr(""))), freshId);
    SaveResponse(if existed then PageUpdated else PageSaved, saved.page, saved.pages)
  }

  /** Saving a page twice reports "Page saved" and then "Page updated",
      and the second save returns the page the first one stored when the
      body is the same. */
  lemma SaveThenUpdate(pages: Table, dto: CrawledDto, id1: nat, id2: nat)
    requires dto.uri !in pages
    ensures var first := SaveWebPage(pages, dto, id1);
      var second := SaveWebPage(first.pages, dto, id2);
      && first.message == PageSaved
      && second.message == PageUpdated
      && second.page == first.page
      && second.pages == first.pages
  {
    var c := Crawled(dto.uri, dto.title, dto.description, dto.category, dto.text, Some(dto.wholePage.GetOr("")));
    SaveTwiceIsSaveOnce(pages, c, id1, id2);
  }

  /** The answer of `checkWebPageExists`, `{ exists }` (`exists` is a
      Dafny keyword). */
  datatype ExistsResponse = ExistsResponse(pageExists: bool)

  /** `checkWebPageExists(query)`: the service's answer, wrapped. */
  function CheckWebPageExists(pages: Table, url: string): (r: ExistsResponse)
    ensures r.pageExists <==> url in pages
  {
    ExistsResponse(CheckExists(pages, url))
  }

  /** `getWebPage(query)`: the service's result, null included. */
  function GetWebPage(pages: Table, url: string): (r: Option<WebPage>)
    ensures r.Some? <==> url in pages
    ensures r.Some? ==> r.value == pages[url]
  {
    Get(pages, url)
  }

  /** A saved page is what the existence check then reports and what the
      read endpoint returns. */
  lemma SavedPageIsVisible(pages: Table, dto: CrawledDto, freshId: nat)
    ensures var r := SaveWebPage(pages, dto, freshId);
      CheckWebPageExists(r.pages, dto.uri).pageExists && GetWebPage(r.pages, dto.uri) == Some(r.page)
  {
  }
}

=== FILE: webpage_service.dfy ===
/** `WebPageService` (src/webpage/webpage.service.ts): the upsert of a
    crawled page into the page table, and the two lookups. The table is a
    finite map from URL to record; `findOneBy({ url })` is map lookup. */
module WebPageService {
  import opened Wrappers

  /** A row of the `WebPage` entity, without its timestamps. `name` and
      `wholePage` are nullable columns. */
  datatype WebPage = WebPage(
    id: nat,
    name: Option<string>,
    url: string,
    title: string,
    description: string,
    category: string,
    text: string,
    wholePage: Option<string>)

  /** `CrawledWebPage`: what a caller hands to the upsert. */
  datatype Crawled = Crawled(
    uri: string,
    title: string,
    description: string,
    category: string,
    text: string,
    wholePage: Option<string>)

  type Table = map<string, WebPage>

  /** Every row is filed under its own URL (the column is unique). */
  predicate Keyed(pages: Table) {
    forall u :: u in pages ==> pages[u].url == u
  }

  /** JavaScript truthiness of an optional string: present and non-empty. */
  predicate Truthy(s: Option<string>) {
    s.Some? && s.value != ""
  }

  /** The table after an upsert and the record `save` returned. */
  datatype Saved = Saved(pages: Table, page: WebPage)

  /** `saveOrUpdateWebPage(crawled)`: overwrite the four content fields of
      the row for `crawled.uri` and take the new `wholePage` only when it is
      truthy; without a row, create one (`freshId` is the id the database
      generates, `name` stays null). */
  function SaveOrUpdate(pages: Table, c: Crawled, freshId: nat): (r: Saved)
    ensures r.pages == pages[c.uri := r.page]
    ensures Keyed(pages) ==> r.page.url == c.uri
    ensures && r.page.title == c.title && r.page.description == c.description
            && r.page.category == c.category && r.page.text == c.text
    ensures c.uri in pages ==>
              && r.page.id == pages[c.uri].id && r.page.name == pages[c.uri].name
              && r.page.url == pages[c.uri].url
              && r.page.wholePage == (if Truthy(c.wholePage) then c.wholePage else pages[c.uri].wholePage)
    ensures c.uri !in pages ==>
              && r.page.id == freshId && r.page.name.None? && r.page.url == c.uri
              && r.page.wholePage == c.wholePage
    ensures Keyed(pages) ==> Keyed(r.pages)
  {
    if c.uri in pages then
      var stored := pages[c.uri];
      var page := stored.(title := c.title, description := c.description, category := c.category,
                          text := c.text, wholePage := if Truthy(c.wholePage) then c.wholePage else stored.wholePage);
      Saved(pages[c.uri := page], page)
    else
      var page := WebPage(freshId, None, c.uri, c.title, c.description, c.category, c.text, c.wholePage);
      Saved(pages[c.uri := page], page)
  }

  /** `checkWebPageExists(url)`: whether a row for the URL exists. */
  function CheckExists(pages: Table, url: string): (b: bool)
    ensures b <==> url in pages
  {
    url in pages
  }

  /** `getWebPage(url)`: the row for the URL, or null. */
  function Get(pages: Table, url: string): (r: Option<WebPage>)
    ensures r.Some? <==> url in pages
    ensures r.Some? ==> r.value == pages[url]
    ensures Keyed(pages) && r.Some? ==> r.value.url == url
  {
    if url in pages then Some(pages[url]) else None
  }

  /** After an upsert the page can be read back under its URL, holding the
      crawled content, and every other URL reads as before. */
  lemma GetAfterSave(pages: Table, c: Crawled, freshId: nat, u: string)
    ensures var r := SaveOrUpdate(pages, c, freshId);
      && Get(r.pages, c.uri) == Some(r.page)
      && CheckExists(r.pages, c.uri)
      && (u != c.uri ==> Get(r.pages, u) == Get(pages, u) && CheckExists(r.pages, u) == CheckExists(pages, u))
  {
  }

  /** Upserting the same crawled page twice leaves the table as one upsert
      did, whatever id the database would have generated the second time. */
  lemma SaveTwiceIsSaveOnce(pages: Table, c: Crawled, id1: nat, id2: nat)
    ensures var once := SaveOrUpdate(pages, c, id1);
      SaveOrUpdate(once.pages, c, id2) == once
  {
    var once := SaveOrUpdate(pages, c, id1);
    var twice := SaveOrUpdate(once.pages, c, id2);
    assert twice.page == once.page;
  }

  /** An update whose `wholePage` is absent or empty keeps the stored
      page source. */
  lemma EmptyWholePageRetained(pages: Table, c: Crawled, freshId: nat)
    requires c.uri in pages && !Truthy(c.wholePage)
    ensures SaveOrUpdate(pages, c, freshId).page.wholePage == pages[c.uri].wholePage
  {
  }
}

=== FILE: wrappers.dfy ===
/** The optional value used wherever the source returns `null`/`undefined`
    or takes a nullable argument. */
module Wrappers {

  datatype Option<+T> = None | Some(value: T) {

    /** The wrapped value, or `default` when there is none (the source's `??`). */
    function GetOr(default: T): T {
      match this
      case Some(v) => v
      case None => default
    }
  }
}
